=== FILE: README.md ===
# deduper, modelled in Dafny

The deduplicator `main.go` walks a directory tree and finds photo and archive files with identical contents. It keeps one file of each group and, unless it runs as a dry run, moves the others into a `_Rejected` folder beside the kept file. It works in three passes:

1. **The walk.** Every regular file whose path does not contain `_Rejected` and whose lower-cased extension is one of `validExt` is recorded under its size. Each recorded file prints a progress mark: `d` when its size group already held a file, `.` otherwise. An entry that the walk cannot read prints `e` and is listed.
2. **The digest pass.** The files of every size group with two or more files are the candidates. Each candidate is hashed with SHA-1 and recorded under its digest, again with a mark. A candidate that cannot be opened ends the run.
3. **Resolution.** Every digest group with two or more files is a duplicate set. For each set:
   - The original is the first path of minimal length.
   - The remaining paths are the rejects, in their order.
   - Reject number `i` (counting from 1) is renamed to `Dir(original)/_Rejected/<stem>_<i><ext>`, where the stem and extension are those of the original.

Modules:

- `Wrappers`: `Option` and `Result`.
- `GoPath`: the parts of `filepath`, `strings` and `fmt` the program uses, for slash-separated paths: `Ext`, `Base`, `Dir`, `Join`, `ToLower`, `Contains` and `%d`.
- `Grouping`: `m[k] = append(m[k], p)`, `duplicatesInt64` and `duplicatesSHA1`.
- `Resolve`: `shortestIdx`, `ByShortest.Less`, `copyPath`, the quarantine folder, the plan of one duplicate set, and renaming on a file system given as a map from path to contents.
- `Progress`: the `ProgressPrinter` class and the output it produces.
- `Dedupe`: the walk filter, the size scan, the digest pass and `main` from the walk to the last rename.

Go's maps are iterated in an unspecified order. `DuplicatesInt64` and `DuplicatesSHA1` therefore pick the next key nondeterministically. A ghost out-parameter records the order taken, and every contract holds for every order.

The program's own header comment (main.go:4-5) says the duplicates go into a `_Rejected` subfolder next to the original file. `main.go:151` passes the original, not the reject, to `copyPath`, so every copy of a set is also named after the original's stem and extension: reject number `i` becomes `<stem of original>_<i><ext of original>`. The model follows the code.

Strings are sequences of characters, each standing for one byte of a Go string. So `|p|` is Go's `len(p)`, which `shortestIdx` compares, and `LexLess` is Go's bytewise `<`.

## Model

| member | source | states |
|---|---|---|
| `GoPath.ToLower` | main.go:91 | the result has the input's length and holds no upper-case ASCII letter; each upper-case letter becomes the lower-case letter at the same place in the alphabet, and every other character is kept |
| `GoPath.ToLowerIdempotent` | main.go:91 | lower-casing twice is lower-casing once |
| `GoPath.ToLowerCaseBlind` | main.go:91 | two strings lower-case alike if and only if they differ only in the case of ASCII letters, so the extension test ignores case and nothing else |
| `GoPath.ExtShape` | main.go:91 | `filepath.Ext` returns a suffix of the path that is empty or starts with its only `.` and holds no separator |
| `GoPath.ExtNone` | main.go:91 | the extension is empty exactly when every `.` of the path is followed by a separator |
| `GoPath.ExtOfSuffix` | main.go:190 | a path that ends in `.x`, with `x` free of dots and separators, has extension `.x` |
| `GoPath.StemExt` | main.go:191 | `filePath[0:len(filePath)-len(ext)]` followed by the extension is the path again |
| `GoPath.BaseShape` | main.go:192 | `filepath.Base` is never empty, and is either `/` (exactly for a non-empty path of separators) or free of separators |
| `GoPath.Dir` | main.go:139 | `filepath.Dir` is never empty and has no trailing separator unless it is the root |
| `GoPath.DirOfJoin` | main.go:139 | `Dir` and `Base` of `Join(dir, name)` give back `dir` and `name` for a single-element name |
| `GoPath.JoinInjective` | main.go:193 | for one directory, different non-empty names join to different paths |
| `GoPath.NatDigitsShape` | main.go:192 | `%d` of a non-negative number writes at least one digit and no leading zero |
| `GoPath.DecimalChars` | main.go:192 | `%d` writes only digits, after a minus sign for a negative number |
| `GoPath.DecimalRoundTrip` | main.go:192 | the `%d` rendering of a number parses back to that number |
| `GoPath.DecimalInjective` | main.go:192 | different numbers render differently under `%d` |
| `Grouping.AppendUnderOneKey` | main.go:92 | appending `p` under `k` grows the group of `k` by `p` at its end, adds `k` to the keys and leaves every other group unchanged |
| `Grouping.GroupsArePartition` | main.go:120 | after a sequence of appends, the group of `k` is exactly the paths appended under `k`, in order, and `k` is a key exactly when one was |
| `Grouping.ConcatContents` | main.go:215-224 | laying out the groups of an enumeration of keys yields every path of those groups and nothing else, as many as the groups hold |
| `Grouping.EnumerationInit` | main.go:215-224 | dropping the last key visited leaves an enumeration of the other keys |
| `Grouping.EnumerationLength` | main.go:226-235 | a duplicate-free enumeration of a key set is as long as the set |
| `Grouping.DuplicatesInt64` | main.go:215-224 | the result holds the groups of all keys with at least two paths, once each, in some order: a path is in it iff its group has at least two paths, and its length is the total size of those groups |
| `Grouping.DuplicatesSHA1` | main.go:226-235 | one result per key with at least two paths, each that key's group, as many results as such keys; every result is a group of the map with at least two paths |
| `Grouping.AddDuplicatesCases` | main_test.go:17-35 | one path gives no duplicate set, two paths under one digest give one, and two different digests give none |
| `Resolve.FirstShortest` | main.go:179-187 | for a non-empty slice, an index whose path is no longer than any other and strictly shorter than every earlier one |
| `Resolve.FirstShortestUnique` | main.go:179-187 | at most one index has that property |
| `Resolve.ShortestIdx` | main.go:179-187 | the loop returns that first shortest index, and 0 for an empty slice |
| `Resolve.Rejects` | main.go:135-137 | cutting out index `i` keeps the paths before `i` and shifts those after it down by one: all paths but the original, in order |
| `Resolve.LexLessIrreflexive` | main.go:176 | Go's string `<` is irreflexive |
| `Resolve.LexLessTransitive` | main.go:176 | Go's string `<` is transitive |
| `Resolve.LexLessTotal` | main.go:176 | of two different strings, one is `<` the other |
| `Resolve.ByShortestIrreflexive` | main.go:173-177 | no duplicate set sorts before itself |
| `Resolve.ByShortestTransitive` | main.go:173-177 | the set order is transitive |
| `Resolve.ByShortestTies` | main.go:173-177 | two sets are unordered exactly when their lower-cased shortest paths are equal |
| `Resolve.CopyPathNumbersDistinct` | main.go:189-194 | for one file and one destination, different numbers give different copy paths |
| `Resolve.CopyPathKeepsExt` | main.go:189-194 | a copy has the extension of the file it is named after |
| `Resolve.CopyNameIsElement` | main.go:192 | the copy name holds no separator when the base of the stem holds none |
| `Resolve.CopyPathPlacement` | main.go:189-194 | the copy lies directly in `dest`, under the copy name |
| `Resolve.QuarantineDirIsSibling` | main.go:139 | the quarantine folder is the entry `_Rejected` of the original's directory |
| `Resolve.QuarantinedCopyIsMarked` | main.go:139-151 | every quarantined copy has `_Rejected` in its path |
| `Resolve.Plan` | main.go:146-151 | one move per reject, in order, each from that reject |
| `Resolve.PlanDestinationsDiffer` | main.go:146-151 | the rejects of one set go to different destinations |
| `Resolve.PlannedMovesProperties` | main.go:134-151 | the plan of a set moves exactly its rejects, to pairwise different destinations that all lie under `_Rejected` |
| `Resolve.ResolveSet` | main.go:134-151 | the per-set step picks the first shortest path as original and builds exactly the planned moves, into the `_Rejected` sibling folder |
| `Resolve.SafeMovesRelocate` | main.go:153 | renames whose sources exist and whose sources and destinations are all different succeed, under the model's `Rename`, which fails only for a missing source; afterwards no source exists, each destination holds its source's former contents, and every other path is unchanged |
| `Resolve.RejectMovesSafe` | main.go:134-152 | moves of a set's rejects to distinct marked destinations are safe and never touch the original |
| `Resolve.PlannedMovesSafe` | main.go:134-152 | the planned moves of a set of distinct existing unmarked files are safe and leave the original alone |
| `Resolve.CrossSetCopyCollision` | main.go:139-151 | copies are named after their set's original, so the originals `d/.jpg` and `d/d.jpg` of two different sets both send their first reject to `d/_Rejected/d_1.jpg` |
| `Resolve.PlannedMovesRelocate` | main.go:134-155 | carrying out a set's plan keeps the original with its contents and moves each reject, contents unchanged, to its numbered copy |
| `Progress.LineCount` | main.go:259-270 | `lineCount` after `n` increments is 0 only for `n = 0` and never exceeds 77 |
| `Progress.RenderMarks` | main.go:245-257 | a printer's output holds exactly the marks printed, in order |
| `Progress.RenderStartsWithHeader` | main.go:260-265 | the first thing a printer writes is a line header |
| `Progress.RenderLastLine` | main.go:259-270 | the last line holds `lineCount` marks |
| `Progress.RenderLinesBounded` | main.go:259-270 | no line holds more than 77 marks |
| `Progress.RenderHeaders` | main.go:259-270 | one header per started line: ceil(n / 77) headers after n marks |
| `Progress.ProgressPrinter.Inc` | main.go:259-270 | `current` grows by exactly 1; `lineCount` restarts at 1 after 77 or 0 and otherwise grows by 1, so it stays within 1..77; a header is written exactly when `current` was a multiple of 77 |
| `Progress.ProgressPrinter.Print` | main.go:250-257 | prints `d` for a duplicate and `.` otherwise, keeping the printer's output consistent with its marks |
| `Progress.ProgressPrinter.Err` | main.go:245-248 | prints `e`, keeping the printer's output consistent with its marks |
| `Dedupe.HasValidExt` | main.go:90-96 | the loop over `validExt` succeeds exactly when the lower-cased extension is in the list |
| `Dedupe.Filter` | main.go:82-96 | a readable entry is recorded exactly when its path avoids `_Rejected`, it is a regular file and its extension is valid |
| `Dedupe.AdmitsExamples` | main.go:82-91 | `p/IMG.JPG` is recorded, since the extension test ignores case; `p/img_Rejected.jpg` is skipped, since any path containing `_Rejected` is |
| `Dedupe.Visit` | main.go:75-98 | the walk callback lists an unreadable entry and marks it `e`; an admitted file is appended to its size group and marked `d` or `.`; nothing else changes |
| `Dedupe.ScanSizes` | main.go:70-98 | after the walk, `fileSizes` groups the admitted files by size, the error list holds the unreadable entries in walk order, and the fresh printer holds one mark per recorded or unreadable entry |
| `Dedupe.SizeItemsAdmitted` | main.go:82-96 | a (size, path) pair is recorded exactly when an admitted entry has that size and path |
| `Dedupe.SizeGroupsPartition` | main.go:92 | a path is in the group of size `k` exactly when an admitted entry of size `k` has that path |
| `Dedupe.KeySeenGrouped` | main.go:92-93 | a key has an earlier item exactly when the grouping already holds a non-empty group under it |
| `Dedupe.GroupingSnoc` | main.go:119-121 | one more recorded file appends it to its group and prints one more mark, `d` exactly when its group already held a file |
| `Dedupe.KeyCountSnoc` | main.go:92 | one more recorded file adds a group exactly when its key is new |
| `Dedupe.DupeMarksCount` | main.go:92-93 | a grouping prints `.` once per group and `d` for every later member of a group |
| `Dedupe.FileSHA1Sum` | main.go:196-213 | fails, naming the path, exactly when the file cannot be opened; otherwise yields the digest of its contents |
| `Dedupe.HashGroupsPartition` | main.go:117-122 | a path is in the group of digest `h` exactly when it is a candidate whose contents hash to `h` |
| `Dedupe.SameGroupSameContents` | main.go:117-122 | the files of a digest group are candidates and share the digest, and so share their contents whenever the digest tells the candidates' different contents apart |
| `Dedupe.HashOne` | main.go:118-121 | the digest loop body: failure exactly for an unopenable file, with no mark printed, otherwise the file appended under its digest with its mark |
| `Dedupe.HashCandidates` | main.go:115-122 | the digest pass fails, at the first unopenable candidate and with the marks of the candidates before it, exactly when some candidate cannot be opened; otherwise it yields the digest grouping of the candidates and one mark per candidate |
| `Dedupe.CarryOut` | main.go:145-153 | the reject loop performs exactly the planned renames in order, stopping at the first failure |
| `Dedupe.PlanOf` | main.go:134-151 | the kept original is one of the set's paths, and there is one move per other path |
| `Dedupe.ResolveOne` | main.go:134-154 | one set: its plan, carried out unless it is a dry run |
| `Dedupe.ResolveAll` | main.go:134-156 | the set loop yields the plans of the sets in order, all of them unless a rename failed, and leaves the file system as applying all plans would, or untouched in a dry run |
| `Dedupe.FindDuplicates` | main.go:70-133 | the walk's errors in walk order; candidates that are the non-singleton size groups laid end to end in some map order, each group in walk order, so every such file once; and either the first unopenable candidate, all candidates before it being openable, or one duplicate set per non-singleton digest group |
| `Dedupe.Deduplicate` | main.go:53-157 | the whole run over the extensions of `validExt`: the same errors and candidates (in the same order) as above; the first unopenable candidate ends it with no plan; otherwise the plans of the duplicate sets, carried out in order unless it is a dry run |
| `Dedupe.CopiesNotRescanned` | main.go:82 | a later walk never records a quarantined copy |
| `Dedupe.DuplicateSetMember` | main.go:82-122 | every member of a duplicate set is an admitted file of a shared size, whose path does not contain `_Rejected`, whose contents hash to the set's digest |

## Left out

- The file system: `filepath.Walk` is given as the sequence of entries it reports; open files are a map from path to contents; `os.Stat`, `os.Mkdir` and the directories themselves are not modelled.
- Deduplicate: the entries' sizes and kinds are taken as given and are not tied to the contents map.
- SHA-1 is a parameter, any function from contents to 20 bytes; `io.Copy` read errors are not modelled, only a missing file.
- `sort.Sort(ByShortest(duplicates))`: the model proves `Less` is a strict order but keeps the sets in map order. Map order is arbitrary, so the sorted order is one of the orders the model covers.
- Printing: the file names, messages and the error list; the progress output is modelled as glyphs, with the percentage kept as the pair (current, total) instead of the rounded `%2.0f` float.
- Flag parsing and usage text; `dryRun` is a parameter.
- `handleError` and `os.Exit`: an error ends the run with a `Failure` result.
- `filepath.Clean`: `Dir` and `Join` clean only what a clean path needs (trailing separators, `.`, the root). `strings.ToLower` is restricted to ASCII.
- `int64` file sizes and `int` counters are unbounded integers; no overflow is modelled.
- Rename: `os.Rename` at main.go:153-154 also fails when the system refuses the move: no write permission on either folder, a read-only file system, or a destination on another device. That last case is reachable, because main.go:139,151 send a reject from any folder into its original's `_Rejected` folder. The model's rename fails only when the source is missing, so `SafeMovesRelocate`, `PlannedMovesRelocate` and `CarryOut` do not cover a run that ends on a refused rename.
- PlannedMovesRelocate: it is about one duplicate set carried out on its own, and takes the set's paths as distinct. The same promise does not hold across sets: `CrossSetCopyCollision` gives two originals whose sets share a copy path, so the later `os.Rename` (main.go:153) replaces the earlier set's quarantined copy. No unique content is lost, since that copy duplicates the earlier set's original, which stays in place. `ApplyPlans` models the renames of all sets in order, and the model proves no theorem about their combined effect.

=== FILE: dedupe.dfy ===
/**
  The deduplicator's pipeline: a walk that groups candidate files by size,
  a second pass that groups the files of shared sizes by SHA-1 digest, and
  the resolution of every digest group with at least two files.
*/
module Dedupe {
  import opened Wrappers
  import opened GoPath
  import opened Grouping
  import opened Resolve
  import opened Progress
  import opened Seqs

  /** The only extensions (lower-cased) whose files are compared; the list repeats some. */
  const VALID_EXT: seq<string> := [
    ".jpg", ".jpeg", ".mov", ".nef", ".raf", ".mp4", ".png", ".tiff", ".heic",
    ".dng", ".raf", ".tiff", ".png", ".mp4", ".mkv", ".tgz", ".zip", ".rar"
  ]

  // ----- the candidate filter -----

  /** The validExt loop: is the lower-cased extension of `path` one of VALID_EXT? */
  method HasValidExt(path: string, validExt: seq<string>) returns (ok: bool)
    ensures ok <==> ToLower(Ext(path)) in validExt
  {
    for i := 0 to |validExt|
      invariant ToLower(Ext(path)) !in validExt[..i]
    {
      if ToLower(Ext(path)) == validExt[i] {
        return true;
      }
      assert validExt[..i + 1] == validExt[..i] + [validExt[i]];
    }
    assert validExt[..|validExt|] == validExt;
    return false;
  }

  /** One call of the walk callback: a visited entry, or one the walk could not read. */
  datatype WalkEntry =
    | Visited(path: string, regular: bool, size: int)
    | WalkError(path: string)

  /**
    The entries the size scan records: readable regular files whose path
    does not contain `_Rejected` and whose extension is valid.
  */
  predicate Admits(e: WalkEntry, validExt: seq<string>) {
    && e.Visited?
    && !Contains(e.path, REJECT_FOLDER)
    && e.regular
    && ToLower(Ext(e.path)) in validExt
  }

  /**
    Two walk entries side by side: the filter ignores the case of the
    extension, and skips a path that merely contains `_Rejected` in a file
    name, not only a `_Rejected` folder.
  */
  lemma AdmitsExamples()
    ensures Admits(Visited("p/IMG.JPG", true, 5), VALID_EXT)
    ensures !Admits(Visited("p/img_Rejected.jpg", true, 5), VALID_EXT)
  {
    ExtOfSuffix("p/IMG", ".JPG");
    assert "p/IMG" + ".JPG" == "p/IMG.JPG";
    assert ToLower(".JPG") == ".jpg";
    assert !Contains("p/IMG.JPG", REJECT_FOLDER) by {
      forall i | 0 <= i <= |"p/IMG.JPG"| - |REJECT_FOLDER| ensures !OccursAt("p/IMG.JPG", REJECT_FOLDER, i) {
      }
    }
    assert "p/img_Rejected.jpg" == "p/img" + REJECT_FOLDER + ".jpg";
    ContainsInfix("p/img", REJECT_FOLDER, ".jpg");
  }

  // ----- the size scan -----

  /** The (size, path) pairs the scan records, in walk order. */
  function SizeItems(entries: seq<WalkEntry>, validExt: seq<string>): (r: seq<(int, string)>)
    ensures |r| <= |entries|
    decreases |entries|
  {
    if entries == [] then []
    else
      var e := entries[|entries| - 1];
      SizeItems(entries[..|entries| - 1], validExt) + if Admits(e, validExt) then [(e.size, e.path)] else []
  }

  /** The fileSizes map after the walk over `entries`. */
  function SizeGroups(entries: seq<WalkEntry>, validExt: seq<string>): map<int, seq<string>> {
    AppendAll(map[], SizeItems(entries, validExt))
  }

  /** The paths of the entries the walk could not read, in walk order. */
  function ErrorPaths(entries: seq<WalkEntry>): (r: seq<string>)
    ensures |r| <= |entries|
    decreases |entries|
  {
    if entries == [] then []
    else
      var e := entries[|entries| - 1];
      ErrorPaths(entries[..|entries| - 1]) + if e.WalkError? then [e.path] else []
  }

  /**
    The mark the walk callback prints for `e`, given the size groups after
    the callback: 'e' for an unreadable entry and, for a recorded file, 'd'
    when its size group already held a file, '.' otherwise.
  */
  function VisitMarks(fileSizes: map<int, seq<string>>, e: WalkEntry, validExt: seq<string>): (r: seq<char>)
    ensures |r| <= 1
  {
    if e.WalkError? then ['e']
    else if Admits(e, validExt) then [if |Group(fileSizes, e.size)| > 1 then 'd' else '.']
    else []
  }

  /** The marks the scan prints over `entries`. */
  function ScanMarks(entries: seq<WalkEntry>, validExt: seq<string>): seq<char>
    decreases |entries|
  {
    if entries == [] then []
    else ScanMarks(entries[..|entries| - 1], validExt) + VisitMarks(SizeGroups(entries, validExt), entries[|entries| - 1], validExt)
  }

  /** A (size, path) pair is recorded exactly when an admitted entry has that size and path. */
  lemma {:induction false} SizeItemsAdmitted(entries: seq<WalkEntry>, validExt: seq<string>, k: int, p: string)
    ensures (k, p) in SizeItems(entries, validExt) <==>
      exists i | 0 <= i < |entries| :: Admits(entries[i], validExt) && entries[i].size == k && entries[i].path == p
    decreases |entries|
  {
    if entries != [] {
      var n := |entries| - 1;
      var init := entries[..n];
      SizeItemsAdmitted(init, validExt, k, p);
      if (k, p) in SizeItems(init, validExt) {
        var i :| 0 <= i < n && Admits(init[i], validExt) && init[i].size == k && init[i].path == p;
        assert entries[i] == init[i];
      } else if Admits(entries[n], validExt) && entries[n].size == k && entries[n].path == p {
        assert (k, p) in SizeItems(entries, validExt);
      }
      if exists i | 0 <= i < |entries| :: Admits(entries[i], validExt) && entries[i].size == k && entries[i].path == p {
        var i :| 0 <= i < |entries| && Admits(entries[i], validExt) && entries[i].size == k && entries[i].path == p;
        if i < n {
          assert init[i] == entries[i];
        }
      }
    }
  }

  /**
    The size groups partition the admitted entries: a path is in the group
    of size k exactly when an admitted entry of size k has that path.
  */
  lemma SizeGroupsPartition(entries: seq<WalkEntry>, validExt: seq<string>, k: int, p: string)
    ensures p in Group(SizeGroups(entries, validExt), k) <==>
      exists i | 0 <= i < |entries| :: Admits(entries[i], validExt) && entries[i].size == k && entries[i].path == p
  {
    GroupsArePartition(SizeItems(entries, validExt), k);
    SizeItemsAdmitted(entries, validExt, k, p);
  }

  /** The filter of the walk callback for a readable entry (the checks after the error check). */
  method Filter(e: WalkEntry, validExt: seq<string>) returns (admitted: bool)
    requires e.Visited?
    ensures admitted == Admits(e, validExt)
  {
    if Contains(e.path, REJECT_FOLDER) {
      return false;
    }
    if !e.regular {
      return false;
    }
    admitted := HasValidExt(e.path, validExt);
  }

  /**
    The walk callback for one entry: an unreadable entry is listed and
    marked 'e'; an admitted file is appended to its size group and marked.
  */
  method Visit(e: WalkEntry, validExt: seq<string>, fileSizes: map<int, seq<string>>, walkErrors: seq<string>, printer: ProgressPrinter)
    returns (fileSizes': map<int, seq<string>>, walkErrors': seq<string>)
    requires printer.Valid()
    modifies printer
    ensures printer.Valid()
    ensures fileSizes' == if Admits(e, validExt) then Append(fileSizes, e.size, e.path) else fileSizes
    ensures walkErrors' == walkErrors + if e.WalkError? then [e.path] else []
    ensures printer.marks == old(printer.marks) + VisitMarks(fileSizes', e, validExt)
  {
    fileSizes', walkErrors' := fileSizes, walkErrors;
    if e.WalkError? {
      walkErrors' := walkErrors + [e.path];
      printer.Err();
      return;
    }
    var admitted := Filter(e, validExt);
    if admitted {
      fileSizes' := Append(fileSizes, e.size, e.path);
      printer.Print(|fileSizes'[e.size]| > 1);
    }
  }

  /** The scan's state after one more entry. */
  lemma ScanStep(entries: seq<WalkEntry>, validExt: seq<string>, n: nat)
    requires n < |entries|
    ensures var e := entries[n];
      && SizeGroups(entries[..n + 1], validExt)
        == (if Admits(e, validExt) then Append(SizeGroups(entries[..n], validExt), e.size, e.path) else SizeGroups(entries[..n], validExt))
      && ErrorPaths(entries[..n + 1]) == ErrorPaths(entries[..n]) + (if e.WalkError? then [e.path] else [])
      && ScanMarks(entries[..n + 1], validExt)
        == ScanMarks(entries[..n], validExt) + VisitMarks(SizeGroups(entries[..n + 1], validExt), e, validExt)
  {
    var e := entries[n];
    assert entries[..n + 1][..n] == entries[..n];
    if Admits(e, validExt) {
      assert SizeItems(entries[..n + 1], validExt) == SizeItems(entries[..n], validExt) + [(e.size, e.path)];
    } else {
      assert SizeItems(entries[..n + 1], validExt) == SizeItems(entries[..n], validExt);
    }
  }

  /**
    The walk over every entry: unreadable entries are listed, admitted files
    are grouped by size, and every entry gets its mark.
  */
  method ScanSizes(entries: seq<WalkEntry>, validExt: seq<string>)
    returns (fileSizes: map<int, seq<string>>, walkErrors: seq<string>, printer: ProgressPrinter)
    ensures fresh(printer) && printer.Valid() && printer.total == 0
    ensures fileSizes == SizeGroups(entries, validExt)
    ensures walkErrors == ErrorPaths(entries)
    ensures printer.marks == ScanMarks(entries, validExt)
  {
    fileSizes, walkErrors := map[], [];
    printer := new ProgressPrinter(0);
    for n := 0 to |entries|
      invariant fresh(printer) && printer.Valid() && printer.total == 0
      invariant fileSizes == SizeGroups(entries[..n], validExt)
      invariant walkErrors == ErrorPaths(entries[..n])
      invariant printer.marks == ScanMarks(entries[..n], validExt)
    {
      ScanStep(entries, validExt, n);
      fileSizes, walkErrors := Visit(entries[n], validExt, fileSizes, walkErrors, printer);
    }
    assert entries[..|entries|] == entries;
  }

  // ----- the digest pass -----

  /** fileSHA1Sum: the digest of the file's contents, or the path when it cannot be opened. */
  function FileSHA1Sum(fs: FileSystem, sha1: seq<bv8> -> Hash, path: string): (r: Result<Hash, string>)
    ensures r.Failure? <==> path !in fs
    ensures r.Failure? ==> r.error == path
    ensures r.Success? ==> r.value == sha1(fs[path])
  {
    if path !in fs then Failure(path) else Success(sha1(fs[path]))
  }

  /** The (digest, path) pairs of the candidates, in order. */
  function HashItems(candidates: seq<string>, fs: FileSystem, sha1: seq<bv8> -> Hash): (r: seq<(Hash, string)>)
    requires forall p | p in candidates :: p in fs
    ensures |r| == |candidates|
  {
    seq(|candidates|, i requires 0 <= i < |candidates| => (sha1(fs[candidates[i]]), candidates[i]))
  }

  /** One more candidate adds its pair at the end. */
  lemma HashItemsSnoc(candidates: seq<string>, fs: FileSystem, sha1: seq<bv8> -> Hash, n: nat)
    requires n < |candidates| && forall j | 0 <= j <= n :: candidates[j] in fs
    ensures forall p | p in candidates[..n] :: p in fs
    ensures forall p | p in candidates[..n + 1] :: p in fs
    ensures HashItems(candidates[..n + 1], fs, sha1) == HashItems(candidates[..n], fs, sha1) + [(sha1(fs[candidates[n]]), candidates[n])]
  {
  }

  /** The fileHashes map after the digest pass. */
  function HashGroups(candidates: seq<string>, fs: FileSystem, sha1: seq<bv8> -> Hash): map<Hash, seq<string>>
    requires forall p | p in candidates :: p in fs
  {
    AppendAll(map[], HashItems(candidates, fs, sha1))
  }

  /** Some item of `items` has key `k`. */
  predicate KeySeen<K(==)>(items: seq<(K, string)>, k: K) {
    exists j | 0 <= j < |items| :: items[j].0 == k
  }

  /**
    The marks a grouping prints, one per item: 'd' when an earlier item had
    the same key, '.' otherwise.
  */
  function DupeMarks<K(==)>(items: seq<(K, string)>): (r: seq<char>)
    ensures |r| == |items|
    decreases |items|
  {
    if items == [] then []
    else
      var init := items[..|items| - 1];
      DupeMarks(init) + [if KeySeen(init, items[|items| - 1].0) then 'd' else '.']
  }

  /** The number of occurrences of `c` in `s`. */
  function Count(s: seq<char>, c: char): nat
    decreases |s|
  {
    if s == [] then 0 else Count(s[..|s| - 1], c) + if s[|s| - 1] == c then 1 else 0
  }

  /** One more character counts once more when it is the one counted. */
  lemma CountSnoc(s: seq<char>, c: char, x: char)
    ensures Count(s + [c], x) == Count(s, x) + if c == x then 1 else 0
  {
    assert (s + [c])[..|s|] == s;
  }

  /** A key has been seen exactly when the grouping already holds a group under it. */
  lemma KeySeenGrouped<K>(items: seq<(K, string)>, k: K)
    ensures KeySeen(items, k) <==> k in AppendAll(map[], items)
    ensures KeySeen(items, k) <==> Group(AppendAll(map[], items), k) != []
  {
    GroupsArePartition(items, k);
    if KeySeen(items, k) {
      var j :| 0 <= j < |items| && items[j].0 == k;
      assert (k, items[j].1) in items;
      assert items[j].1 in PathsUnder(items, k);
    }
  }

  /**
    One more item: its group grows, and the mark printed for it is 'd'
    exactly when its group held a path before.
  */
  lemma GroupingSnoc<K>(items: seq<(K, string)>, k: K, p: string)
    ensures AppendAll(map[], items + [(k, p)]) == Append(AppendAll(map[], items), k, p)
    ensures DupeMarks(items + [(k, p)]) == DupeMarks(items)
      + [if |Group(AppendAll(map[], items + [(k, p)]), k)| > 1 then 'd' else '.']
  {
    assert (items + [(k, p)])[..|items|] == items;
    KeySeenGrouped(items, k);
  }

  /**
    A grouping prints '.' once per group, for the first path of the group,
    and 'd' for every later path.
  */
  lemma {:induction false} DupeMarksCount<K>(items: seq<(K, string)>)
    ensures Count(DupeMarks(items), '.') == |AppendAll(map[], items).Keys|
    ensures Count(DupeMarks(items), 'd') == |items| - |AppendAll(map[], items).Keys|
    decreases |items|
  {
    if items != [] {
      var n := |items| - 1;
      var k := items[n].0;
      DupeMarksCount(items[..n]);
      KeyCountSnoc(items);
      var mark := if KeySeen(items[..n], k) then 'd' else '.';
      assert DupeMarks(items) == DupeMarks(items[..n]) + [mark];
      CountSnoc(DupeMarks(items[..n]), mark, '.');
      CountSnoc(DupeMarks(items[..n]), mark, 'd');
    }
  }

  /** One more item adds a group exactly when its key is new. */
  lemma KeyCountSnoc<K>(items: seq<(K, string)>)
    requires items != []
    ensures var n := |items| - 1;
      |AppendAll(map[], items).Keys| == |AppendAll(map[], items[..n]).Keys| + if KeySeen(items[..n], items[n].0) then 0 else 1
  {
    var n := |items| - 1;
    var k, prev := items[n].0, AppendAll(map[], items[..n]);
    KeySeenGrouped(items[..n], k);
    assert AppendAll(map[], items).Keys == prev.Keys + {k};
    if k in prev {
      assert prev.Keys + {k} == prev.Keys;
    } else {
      assert |prev.Keys + {k}| == |prev.Keys| + 1;
    }
  }

  /** A path is in the group of digest h exactly when it is a candidate whose contents hash to h. */
  lemma {:induction false} HashGroupsPartition(candidates: seq<string>, fs: FileSystem, sha1: seq<bv8> -> Hash, h: Hash, p: string)
    requires forall q | q in candidates :: q in fs
    ensures p in Group(HashGroups(candidates, fs, sha1), h) <==> p in candidates && sha1(fs[p]) == h
  {
    var items := HashItems(candidates, fs, sha1);
    GroupsArePartition(items, h);
    if p in candidates && sha1(fs[p]) == h {
      var i :| 0 <= i < |candidates| && candidates[i] == p;
      assert items[i] == (h, p);
    }
    if (h, p) in items {
      var i :| 0 <= i < |items| && items[i] == (h, p);
      assert candidates[i] == p;
    }
  }

  /**
    The files of one digest group are candidates and agree on their digest,
    and so on their contents whenever the digest tells the candidates'
    different contents apart.
  */
  lemma SameGroupSameContents(candidates: seq<string>, fs: FileSystem, sha1: seq<bv8> -> Hash, h: Hash, p: string, q: string)
    requires forall x | x in candidates :: x in fs
    requires p in Group(HashGroups(candidates, fs, sha1), h) && q in Group(HashGroups(candidates, fs, sha1), h)
    ensures p in candidates && q in candidates
    ensures p in fs && q in fs && sha1(fs[p]) == sha1(fs[q]) == h
    ensures (forall x, y | x in candidates && y in candidates && sha1(fs[x]) == sha1(fs[y]) :: fs[x] == fs[y]) ==> fs[p] == fs[q]
  {
    HashGroupsPartition(candidates, fs, sha1, h, p);
    HashGroupsPartition(candidates, fs, sha1, h, q);
  }

  /**
    The body of the digest loop for one candidate: hash it, append it under
    its digest and print its mark; a file that cannot be opened ends the run.
    `items` are the (digest, path) pairs appended so far.
  */
  method HashOne(fileHashes: map<Hash, seq<string>>, ghost items: seq<(Hash, string)>, path: string,
                 fs: FileSystem, sha1: seq<bv8> -> Hash, printer: ProgressPrinter)
    returns (r: Result<map<Hash, seq<string>>, string>)
    requires printer.Valid()
    requires fileHashes == AppendAll(map[], items) && printer.marks == DupeMarks(items)
    modifies printer
    ensures printer.Valid()
    ensures r.Failure? <==> path !in fs
    ensures r.Failure? ==> r.error == path && printer.marks == old(printer.marks)
    ensures r.Success? ==>
      && r.value == AppendAll(map[], items + [(sha1(fs[path]), path)])
      && printer.marks == DupeMarks(items + [(sha1(fs[path]), path)])
  {
    var sum := FileSHA1Sum(fs, sha1, path);
    if sum.Failure? {
      return Failure(sum.error);
    }
    GroupingSnoc(items, sum.value, path);
    var next := Append(fileHashes, sum.value, path);
    printer.Print(|next[sum.value]| > 1);
    return Success(next);
  }

  /**
    The digest pass: every candidate is hashed and appended under its digest,
    with a mark each; the first candidate that cannot be opened stops the run.
  */
  method HashCandidates(candidates: seq<string>, fs: FileSystem, sha1: seq<bv8> -> Hash)
    returns (r: Result<map<Hash, seq<string>>, string>, printer: ProgressPrinter)
    ensures fresh(printer) && printer.Valid() && printer.total == |candidates|
    ensures r.Failure? <==> exists p | p in candidates :: p !in fs
    ensures r.Failure? ==>
      exists i | 0 <= i < |candidates| ::
        && candidates[i] == r.error && r.error !in fs
        && (forall j | 0 <= j < i :: candidates[j] in fs)
        && printer.marks == DupeMarks(HashItems(candidates[..i], fs, sha1))
    ensures r.Success? ==>
      && (forall p | p in candidates :: p in fs)
      && r.value == HashGroups(candidates, fs, sha1)
      && printer.marks == DupeMarks(HashItems(candidates, fs, sha1))
  {
    printer := new ProgressPrinter(|candidates|);
    var fileHashes := map[];
    for n := 0 to |candidates|
      invariant fresh(printer) && printer.Valid() && printer.total == |candidates|
      invariant forall j | 0 <= j < n :: candidates[j] in fs
      invariant fileHashes == AppendAll(map[], HashItems(candidates[..n], fs, sha1))
      invariant printer.marks == DupeMarks(HashItems(candidates[..n], fs, sha1))
    {
      var step := HashOne(fileHashes, HashItems(candidates[..n], fs, sha1), candidates[n], fs, sha1, printer);
      if step.Failure? {
        assert candidates[n] !in fs && step.error == candidates[n];
        return step, printer;
      }
      HashItemsSnoc(candidates, fs, sha1, n);
      fileHashes := step.value;
    }
    assert candidates[..|candidates|] == candidates;
    return Success(fileHashes), printer;
  }

  // ----- the whole run -----

  /** What main does with one duplicate set: the file it keeps and the moves of the others. */
  datatype SetPlan = SetPlan(original: string, moves: seq<Move>)

  /** The plan of one duplicate set. */
  function PlanOf(paths: seq<string>): (r: SetPlan)
    requires paths != []
    ensures r.original in paths && |r.moves| == |paths| - 1
  {
    SetPlan(paths[FirstShortest(paths)], PlannedMoves(paths))
  }

  /** The plans of the duplicate sets, in the order main visits them. */
  function PlansOf(sets: seq<seq<string>>): (r: seq<SetPlan>)
    requires forall i | 0 <= i < |sets| :: sets[i] != []
    ensures |r| == |sets|
  {
    seq(|sets|, i requires 0 <= i < |sets| => PlanOf(sets[i]))
  }

  /** The renames of every plan, set after set; the first rename that fails ends the run. */
  function ApplyPlans(fs: FileSystem, plans: seq<SetPlan>): Result<FileSystem, string>
    decreases |plans|
  {
    if plans == [] then
      Success(fs)
    else
      match ApplyMoves(fs, plans[0].moves)
      case Failure(e) => Failure(e)
      case Success(next) => ApplyPlans(next, plans[1..])
  }

  /** The reject loop of main outside a dry run: os.Rename of each reject to its copy path, in order. */
  method CarryOut(fs: FileSystem, moves: seq<Move>) returns (r: Result<FileSystem, string>)
    ensures r == ApplyMoves(fs, moves)
  {
    var current := fs;
    for j := 0 to |moves|
      invariant ApplyMoves(current, moves[j..]) == ApplyMoves(fs, moves)
    {
      var step := Rename(current, moves[j].from, moves[j].to);
      if step.Failure? {
        return Failure(step.error);
      }
      assert moves[j..][1..] == moves[j + 1..];
      current := step.value;
    }
    return Success(current);
  }

  /**
    One iteration of the set loop of main: resolve the set into its plan
    and, unless `dryRun`, rename its rejects.
  */
  method ResolveOne(fs: FileSystem, paths: seq<string>, dryRun: bool) returns (plan: SetPlan, result: Result<FileSystem, string>)
    requires paths != []
    ensures plan == PlanOf(paths)
    ensures result == if dryRun then Success(fs) else ApplyMoves(fs, plan.moves)
  {
    var original, rejectedDir, moves := ResolveSet(paths);
    plan := SetPlan(original, moves);
    if dryRun {
      return plan, Success(fs);
    }
    result := CarryOut(fs, moves);
  }

  /**
    The set loop of main: each duplicate set is resolved into its plan and,
    unless `dryRun`, its rejects are renamed; the first failing rename ends
    the run.
  */
  method ResolveAll(fs: FileSystem, sets: seq<seq<string>>, dryRun: bool) returns (result: Result<FileSystem, string>, plans: seq<SetPlan>)
    requires forall i | 0 <= i < |sets| :: sets[i] != []
    ensures |plans| <= |sets| && plans == PlansOf(sets)[..|plans|]
    ensures result.Success? ==> plans == PlansOf(sets)
    ensures result == if dryRun then Success(fs) else ApplyPlans(fs, PlansOf(sets))
  {
    ghost var all := PlansOf(sets);
    plans := [];
    var current := fs;
    for i := 0 to |sets|
      invariant plans == all[..i]
      invariant !dryRun ==> ApplyPlans(current, all[i..]) == ApplyPlans(fs, all)
      invariant dryRun ==> current == fs
    {
      var plan, step := ResolveOne(current, sets[i], dryRun);
      PrefixSnoc(all, i, plan);
      assert all[i..][0] == plan && all[i..][1..] == all[i + 1..];
      plans := plans + [plan];
      if step.Failure? {
        return step, plans;
      }
      current := step.value;
    }
    assert all[..|sets|] == all;
    return Success(current), plans;
  }

  /**
    The two passes of main before the set loop: the size scan over the
    walk's entries, the candidates of shared sizes, the digest pass and the
    duplicate sets; a candidate that cannot be opened ends the run.  The
    ghost `sizeOrder` and `digests` record the orders in which the size map
    and the digest map were visited.
  */
  method FindDuplicates(entries: seq<WalkEntry>, validExt: seq<string>, fs: FileSystem, sha1: seq<bv8> -> Hash)
    returns (walkErrors: seq<string>, candidates: seq<string>, sets: Result<seq<seq<string>>, string>,
             ghost sizeOrder: seq<int>, ghost digests: seq<Hash>)
    ensures walkErrors == ErrorPaths(entries)
    ensures Enumerates(sizeOrder, NonSingletonKeys(SizeGroups(entries, validExt)))
    ensures forall k | k in sizeOrder :: k in SizeGroups(entries, validExt)
    ensures candidates == Concat(SizeGroups(entries, validExt), sizeOrder)
    ensures |candidates| == TotalSize(SizeGroups(entries, validExt), NonSingletonKeys(SizeGroups(entries, validExt)))
    ensures forall p :: p in candidates <==>
      exists k :: k in NonSingletonKeys(SizeGroups(entries, validExt)) && p in SizeGroups(entries, validExt)[k]
    ensures sets.Failure? <==> exists p | p in candidates :: p !in fs
    ensures sets.Failure? ==>
      exists i | 0 <= i < |candidates| :: candidates[i] == sets.error && sets.error !in fs && forall j | 0 <= j < i :: candidates[j] in fs
    ensures sets.Success? ==>
      && Enumerates(digests, NonSingletonKeys(HashGroups(candidates, fs, sha1)))
      && |sets.value| == |digests|
      && forall i | 0 <= i < |digests| :: sets.value[i] == HashGroups(candidates, fs, sha1)[digests[i]] && |sets.value[i]| >= 2
  {
    var fileSizes, errors, scanPrinter := ScanSizes(entries, validExt);
    walkErrors := errors;
    candidates, sizeOrder := DuplicatesInt64(fileSizes);
    var hashed, hashPrinter := HashCandidates(candidates, fs, sha1);
    if hashed.Failure? {
      return walkErrors, candidates, Failure(hashed.error), sizeOrder, [];
    }
    var found;
    found, digests := DuplicatesSHA1(hashed.value);
    sets := Success(found);
  }

  /**
    main, from the walk to the last rename, with the extensions of validExt.
  */
  method Deduplicate(entries: seq<WalkEntry>, fs: FileSystem, sha1: seq<bv8> -> Hash, dryRun: bool)
    returns (result: Result<FileSystem, string>, walkErrors: seq<string>, candidates: seq<string>, plans: seq<SetPlan>,
             ghost sizeOrder: seq<int>)
    ensures walkErrors == ErrorPaths(entries)
    ensures Enumerates(sizeOrder, NonSingletonKeys(SizeGroups(entries, VALID_EXT)))
    ensures forall k | k in sizeOrder :: k in SizeGroups(entries, VALID_EXT)
    ensures candidates == Concat(SizeGroups(entries, VALID_EXT), sizeOrder)
    ensures |candidates| == TotalSize(SizeGroups(entries, VALID_EXT), NonSingletonKeys(SizeGroups(entries, VALID_EXT)))
    ensures forall p :: p in candidates <==>
      exists k :: k in NonSingletonKeys(SizeGroups(entries, VALID_EXT)) && p in SizeGroups(entries, VALID_EXT)[k]
    ensures (exists p | p in candidates :: p !in fs) ==>
      && result.Failure? && plans == []
      && exists i | 0 <= i < |candidates| :: candidates[i] == result.error && result.error !in fs && forall j | 0 <= j < i :: candidates[j] in fs
    ensures (forall p | p in candidates :: p in fs) ==>
      exists digests: seq<Hash>, sets: seq<seq<string>> ::
        && Enumerates(digests, NonSingletonKeys(HashGroups(candidates, fs, sha1)))
        && |sets| == |digests|
        && (forall i | 0 <= i < |digests| :: sets[i] == HashGroups(candidates, fs, sha1)[digests[i]] && |sets[i]| >= 2)
        && |plans| <= |sets| && plans == PlansOf(sets)[..|plans|]
        && (result.Success? ==> plans == PlansOf(sets))
        && result == if dryRun then Success(fs) else ApplyPlans(fs, PlansOf(sets))
  {
    var sets;
    ghost var digests;
    walkErrors, candidates, sets, sizeOrder, digests := FindDuplicates(entries, VALID_EXT, fs, sha1);
    if sets.Failure? {
      return Failure(sets.error), walkErrors, candidates, [], sizeOrder;
    }
    result, plans := ResolveAll(fs, sets.value, dryRun);
  }

  // ----- properties of a run -----

  /**
    A later walk skips every copy a plan creates: its path contains
    `_Rejected`, which the filter rejects whatever the extension.
  */
  lemma CopiesNotRescanned(paths: seq<string>, j: nat, validExt: seq<string>)
    requires paths != [] && j < |paths| - 1
    ensures forall e: WalkEntry | e.path == PlanOf(paths).moves[j].to :: !Admits(e, validExt)
  {
    PlannedMovesProperties(paths);
  }

  /**
    Every member of a digest group of the candidates is a file the walk
    admitted, in a size group of at least two files, with a path that does
    not contain `_Rejected`, and with contents that hash to the group's digest.
  */
  lemma DuplicateSetMember(entries: seq<WalkEntry>, validExt: seq<string>, candidates: seq<string>,
                           fs: FileSystem, sha1: seq<bv8> -> Hash, h: Hash, p: string)
    requires forall q :: q in candidates <==>
      exists k :: k in NonSingletonKeys(SizeGroups(entries, validExt)) && q in SizeGroups(entries, validExt)[k]
    requires forall q | q in candidates :: q in fs
    requires p in Group(HashGroups(candidates, fs, sha1), h)
    ensures p in fs && sha1(fs[p]) == h
    ensures !Contains(p, REJECT_FOLDER)
    ensures exists i | 0 <= i < |entries| ::
      && Admits(entries[i], validExt) && entries[i].path == p
      && |Group(SizeGroups(entries, validExt), entries[i].size)| >= 2
  {
    HashGroupsPartition(candidates, fs, sha1, h, p);
    var k :| k in NonSingletonKeys(SizeGroups(entries, validExt)) && p in SizeGroups(entries, validExt)[k];
    SizeGroupsPartition(entries, validExt, k, p);
    var i :| 0 <= i < |entries| && Admits(entries[i], validExt) && entries[i].size == k && entries[i].path == p;
    assert Group(SizeGroups(entries, validExt), k) == SizeGroups(entries, validExt)[k];
  }
}

=== FILE: gopath.dfy ===
/**
  The parts of Go's `path/filepath`, `strings` and `fmt` packages that the
  deduplicator relies on, for slash-separated (Unix) paths.  A string is a
  sequence of characters, each standing for one byte of a Go string, so `|p|`
  is Go's `len(p)`; case folding is restricted to ASCII.
*/
module GoPath {
  import opened Wrappers

  const SEPARATOR: char := '/'

  // ----- strings.ToLower, restricted to ASCII -----

  function LowerChar(c: char): char {
    if 'A' <= c <= 'Z' then (c as int + 32) as char else c
  }

  predicate IsUpper(c: char) {
    'A' <= c <= 'Z'
  }

  /**
    strings.ToLower on ASCII: no upper-case letter is left, each one becomes
    the lower-case letter at the same place in the alphabet, and every other
    character is kept.
  */
  function ToLower(s: string): (r: string)
    ensures |r| == |s|
    ensures forall i | 0 <= i < |r| :: !IsUpper(r[i])
    ensures forall i | 0 <= i < |s| && IsUpper(s[i]) :: 'a' <= r[i] <= 'z' && r[i] as int - 'a' as int == s[i] as int - 'A' as int
    ensures forall i | 0 <= i < |s| && !IsUpper(s[i]) :: r[i] == s[i]
  {
    seq(|s|, i requires 0 <= i < |s| => LowerChar(s[i]))
  }

  /** Lower-casing twice is lower-casing once. */
  lemma ToLowerIdempotent(s: string)
    ensures ToLower(ToLower(s)) == ToLower(s)
  {
  }

  /** `s` and `t` agree position by position up to the case of ASCII letters. */
  predicate SameUpToCase(s: string, t: string) {
    && |s| == |t|
    && forall i | 0 <= i < |s| ::
         s[i] == t[i] || (IsUpper(s[i]) && t[i] as int == s[i] as int + 32) || (IsUpper(t[i]) && s[i] as int == t[i] as int + 32)
  }

  /** Two strings lower-case alike exactly when they agree up to the case of ASCII letters. */
  lemma ToLowerCaseBlind(s: string, t: string)
    ensures ToLower(s) == ToLower(t) <==> SameUpToCase(s, t)
  {
    if ToLower(s) == ToLower(t) {
      forall i | 0 <= i < |s|
        ensures s[i] == t[i] || (IsUpper(s[i]) && t[i] as int == s[i] as int + 32) || (IsUpper(t[i]) && s[i] as int == t[i] as int + 32)
      {
        assert ToLower(s)[i] == ToLower(t)[i];
      }
    }
  }

  // ----- strings.Contains -----

  /** `sub` occurs in `s` starting at index `i`. */
  predicate OccursAt(s: string, sub: string, i: int) {
    0 <= i <= |s| - |sub| && s[i..i + |sub|] == sub
  }

  /** `sub` occurs somewhere in `s`. */
  predicate Contains(s: string, sub: string) {
    exists i | 0 <= i <= |s| - |sub| :: OccursAt(s, sub, i)
  }

  lemma ContainsInfix(x: string, sub: string, y: string)
    ensures Contains(x + sub + y, sub)
  {
    assert OccursAt(x + sub + y, sub, |x|);
  }

  // ----- filepath.Ext -----

  /**
    The extension of `p`: the suffix that starts at the last '.' of the last
    path element, or "" when that element has no '.'.  Like Go's loop, it
    walks back from the end and stops at the first separator.
  */
  function Ext(p: string): (r: string)
    ensures |r| <= |p|
    decreases |p|
  {
    if p == [] then
      ""
    else
      var c := p[|p| - 1];
      if c == SEPARATOR then
        ""
      else if c == '.' then
        [c]
      else
        var e := Ext(p[..|p| - 1]);
        if e == "" then "" else e + [c]
  }

  /**
    The extension is a suffix of `p` that, when not empty, starts with '.'
    and holds no other '.' and no separator.
  */
  lemma {:induction false} ExtShape(p: string)
    ensures Ext(p) == p[|p| - |Ext(p)|..]
    ensures Ext(p) != "" ==> Ext(p)[0] == '.' && forall k | 1 <= k < |Ext(p)| :: Ext(p)[k] != '.' && Ext(p)[k] != SEPARATOR
    decreases |p|
  {
    if p != [] && p[|p| - 1] != SEPARATOR && p[|p| - 1] != '.' {
      var init := p[..|p| - 1];
      ExtShape(init);
      var e := Ext(init);
      if e != "" {
        assert e == p[|p| - 1 - |e|..|p| - 1];
        assert Ext(p) == e + [p[|p| - 1]];
      }
    }
  }

  /** A path has no extension exactly when every '.' in it is followed by a separator. */
  lemma {:induction false} ExtNone(p: string)
    ensures Ext(p) == "" <==> forall k | 0 <= k < |p| && p[k] == '.' :: exists m | k < m < |p| :: p[m] == SEPARATOR
    decreases |p|
  {
    if p != [] {
      var n := |p| - 1;
      var init := p[..n];
      ExtNone(init);
      ExtShape(init);
      if p[n] != SEPARATOR && p[n] != '.' && Ext(init) == "" {
        forall k | 0 <= k < |p| && p[k] == '.' ensures exists m | k < m < |p| :: p[m] == SEPARATOR {
          assert init[k] == '.';
          var m :| k < m < n && init[m] == SEPARATOR;
          assert p[m] == SEPARATOR;
        }
      } else if p[n] != SEPARATOR && p[n] != '.' {
        var k :| 0 <= k < n && init[k] == '.' && forall m | k < m < n :: init[m] != SEPARATOR;
        assert p[k] == '.' && forall m | k < m < |p| :: p[m] != SEPARATOR;
      }
    }
  }

  /** `p` without its extension: `p[0:len(p)-len(ext)]`. */
  function Stem(p: string): string {
    p[..|p| - |Ext(p)|]
  }

  /** The stem followed by the extension is the path again. */
  lemma StemExt(p: string)
    ensures Stem(p) + Ext(p) == p
  {
    ExtShape(p);
  }

  /** A non-empty extension survives anything written in front of it. */
  lemma {:induction false} ExtOfSuffix(x: string, e: string)
    requires e != "" && e[0] == '.'
    requires forall k | 1 <= k < |e| :: e[k] != '.' && e[k] != SEPARATOR
    ensures Ext(x + e) == e
    decreases |e|
  {
    var p := x + e;
    if |e| > 1 {
      assert e[|e| - 1] != '.' && e[|e| - 1] != SEPARATOR;
      var init := e[..|e| - 1];
      ExtOfSuffix(x, init);
      assert p[..|p| - 1] == x + init;
      assert init + [e[|e| - 1]] == e;
    }
  }

  // ----- filepath.Base and filepath.Dir -----

  /** `p` with its trailing separators removed. */
  function TrimTrailingSeparators(p: string): (r: string)
    ensures |r| <= |p| && r == p[..|r|]
    ensures r == "" || r[|r| - 1] != SEPARATOR
    ensures forall k | |r| <= k < |p| :: p[k] == SEPARATOR
    decreases |p|
  {
    if p != "" && p[|p| - 1] == SEPARATOR then TrimTrailingSeparators(p[..|p| - 1]) else p
  }

  /** The index just after the last separator of `p`, or 0 when it has none. */
  function ElementStart(p: string): (i: nat)
    ensures i <= |p|
    ensures SEPARATOR !in p[i..]
    ensures i > 0 ==> p[i - 1] == SEPARATOR
    decreases |p|
  {
    if p == "" || p[|p| - 1] == SEPARATOR then |p| else ElementStart(p[..|p| - 1])
  }

  /**
    filepath.Base: the last element of `p` once trailing separators are
    dropped; "." for the empty path and "/" for a path of separators only.
  */
  function Base(p: string): string {
    if p == "" then
      "."
    else
      var t := TrimTrailingSeparators(p);
      if t == "" then [SEPARATOR] else t[ElementStart(t)..]
  }

  /**
    Base is never empty, and is either "/" (exactly for a non-empty path of
    separators only) or free of separators.
  */
  lemma BaseShape(p: string)
    ensures Base(p) != ""
    ensures Base(p) == [SEPARATOR] || SEPARATOR !in Base(p)
    ensures Base(p) == [SEPARATOR] <==> p != "" && TrimTrailingSeparators(p) == ""
  {
    if p != "" {
      var t := TrimTrailingSeparators(p);
      if t != "" {
        assert t[ElementStart(t)..] != "";
      }
    }
  }

  /**
    filepath.Dir: everything before the last element, with its trailing
    separators removed; "." when `p` has no separator, "/" for the root.
    Go cleans this prefix lexically; the model removes trailing separators
    only, which is all the cleaning a clean path needs.
  */
  function Dir(p: string): (r: string)
    ensures DirForm(r)
  {
    var i := ElementStart(p);
    if i == 0 then
      "."
    else
      var d := TrimTrailingSeparators(p[..i]);
      if d == "" then [SEPARATOR] else d
  }

  /** The shape of a directory returned by Dir: non-empty, no trailing separator but for the root. */
  predicate DirForm(d: string) {
    d != "" && (d == [SEPARATOR] || d[|d| - 1] != SEPARATOR)
  }

  // ----- filepath.Join -----

  /**
    filepath.Join of a directory and one name.  Go cleans the joined path;
    the model reproduces that cleaning for a clean directory and a name that
    is a single clean path element.
  */
  function Join(dir: string, name: string): string {
    if dir == "" then name
    else if name == "" then dir
    else if dir == "." then name
    else if dir[|dir| - 1] == SEPARATOR then dir + name
    else dir + [SEPARATOR] + name
  }

  /** Below a directory that is neither empty, "." nor the root, Join inserts one separator. */
  lemma JoinBelow(dir: string, name: string)
    requires |dir| > 1 && dir[|dir| - 1] != SEPARATOR && name != ""
    ensures Join(dir, name) == dir + [SEPARATOR] + name
  {
  }

  /** For a fixed directory, different non-empty names join to different paths. */
  lemma JoinInjective(dir: string, x: string, y: string)
    requires x != "" && y != ""
    requires Join(dir, x) == Join(dir, y)
    ensures x == y
  {
    if dir != "" && dir != "." {
      var prefix := if dir[|dir| - 1] == SEPARATOR then dir else dir + [SEPARATOR];
      assert Join(dir, x) == prefix + x && Join(dir, y) == prefix + y;
      assert x == (prefix + x)[|prefix|..];
      assert y == (prefix + y)[|prefix|..];
    }
  }

  /** The name ends the joined path. */
  lemma JoinEndsWithName(dir: string, name: string)
    requires name != ""
    ensures exists front :: Join(dir, name) == front + name
  {
    if dir == "" || dir == "." {
      assert Join(dir, name) == [] + name;
    } else if dir[|dir| - 1] == SEPARATOR {
      assert Join(dir, name) == dir + name;
    } else {
      assert Join(dir, name) == (dir + [SEPARATOR]) + name;
    }
  }

  /** Joining a single element to a directory and taking Dir gives the directory back. */
  lemma {:induction false} DirOfJoin(dir: string, name: string)
    requires DirForm(dir)
    requires name != "" && SEPARATOR !in name
    ensures Dir(Join(dir, name)) == dir
    ensures Base(Join(dir, name)) == name
  {
    var p := Join(dir, name);
    var front := if dir == "." then "" else if dir == [SEPARATOR] then dir else dir + [SEPARATOR];
    assert p == front + name;
    ElementStartAfter(front, name);
    assert p[|front|..] == name;
    TrimOfElementFree(p);
    if dir != "." {
      assert p[..|front|] == front;
      if dir != [SEPARATOR] {
        assert front[..|front| - 1] == dir;
        TrimOfElementFree(dir);
      }
    }
  }

  /** After a separator (or at the start), a separator-free name is the last element. */
  lemma {:induction false} ElementStartAfter(front: string, name: string)
    requires front == "" || front[|front| - 1] == SEPARATOR
    requires SEPARATOR !in name
    ensures ElementStart(front + name) == |front|
    decreases |name|
  {
    if name != "" {
      var p := front + name;
      assert p[|p| - 1] == name[|name| - 1];
      assert p[..|p| - 1] == front + name[..|name| - 1];
      ElementStartAfter(front, name[..|name| - 1]);
    } else {
      assert front + name == front;
    }
  }

  /** A path ending in a separator-free element has nothing to trim. */
  lemma TrimOfElementFree(p: string)
    requires p != "" && p[|p| - 1] != SEPARATOR
    ensures TrimTrailingSeparators(p) == p
  {
  }

  // ----- fmt's %d verb -----

  predicate IsDigit(c: char) {
    '0' <= c <= '9'
  }

  predicate AllDigits(s: string) {
    forall i | 0 <= i < |s| :: IsDigit(s[i])
  }

  function DigitChar(d: nat): (c: char)
    requires d < 10
    ensures IsDigit(c)
  {
    ('0' as int + d) as char
  }

  /** The decimal digits of `n`, most significant first, without leading zeros. */
  function NatDigits(n: nat): string
    decreases n
  {
    if n < 10 then [DigitChar(n)] else NatDigits(n / 10) + [DigitChar(n % 10)]
  }

  /** NatDigits writes at least one digit, and no leading zero. */
  lemma {:induction false} NatDigitsShape(n: nat)
    ensures NatDigits(n) != [] && AllDigits(NatDigits(n))
    ensures |NatDigits(n)| > 1 ==> NatDigits(n)[0] != '0'
    decreases n
  {
    if n >= 10 {
      NatDigitsShape(n / 10);
      assert NatDigits(n)[0] == NatDigits(n / 10)[0];
    }
  }

  /** fmt.Sprintf("%d", n). */
  function Decimal(n: int): string {
    if n < 0 then "-" + NatDigits(-n) else NatDigits(n)
  }

  /** Decimal writes digits only, after a minus sign for a negative number. */
  lemma DecimalChars(n: int)
    ensures forall c | c in Decimal(n) :: c == '-' || IsDigit(c)
  {
    if n < 0 {
      NatDigitsShape(-n);
      assert Decimal(n) == "-" + NatDigits(-n);
    } else {
      NatDigitsShape(n);
    }
  }

  /** The value of a string of decimal digits. */
  function DigitsValue(s: string): nat
    requires AllDigits(s)
    decreases |s|
  {
    if s == [] then 0 else DigitsValue(s[..|s| - 1]) * 10 + (s[|s| - 1] as int - '0' as int)
  }

  /** Reads back an optionally signed decimal number; the inverse of Decimal. */
  function ParseDecimal(s: string): Option<int> {
    if s != [] && s[0] == '-' && s[1..] != [] && AllDigits(s[1..]) then Some(0 - DigitsValue(s[1..]))
    else if s != [] && AllDigits(s) then Some(DigitsValue(s))
    else None
  }

  lemma {:induction false} NatDigitsValue(n: nat)
    ensures AllDigits(NatDigits(n)) && DigitsValue(NatDigits(n)) == n
    decreases n
  {
    NatDigitsShape(n);
    if n >= 10 {
      NatDigitsValue(n / 10);
      var s := NatDigits(n);
      assert s[..|s| - 1] == NatDigits(n / 10);
    }
  }

  /** Decimal formatting loses nothing: parsing its output gives the number back. */
  lemma DecimalRoundTrip(n: int)
    ensures ParseDecimal(Decimal(n)) == Some(n)
  {
    var s := Decimal(n);
    if n < 0 {
      var digits := NatDigits(-n);
      NatDigitsShape(-n);
      NatDigitsValue(-n);
      assert s[0] == '-' && s[1..] == digits;
      assert ParseDecimal(s) == Some(0 - DigitsValue(digits));
    } else {
      NatDigitsShape(n);
      NatDigitsValue(n);
      assert IsDigit(s[0]);
      assert ParseDecimal(s) == Some(DigitsValue(s));
    }
  }

  /** Distinct numbers are written differently. */
  lemma DecimalInjective(m: int, n: int)
    requires Decimal(m) == Decimal(n)
    ensures m == n
  {
    DecimalRoundTrip(m);
    DecimalRoundTrip(n);
  }
}

=== FILE: grouping.dfy ===
/**
  Grouping of paths under a key (file size or content digest), as the
  deduplicator does with `m[k] = append(m[k], path)`, and the selection of
  the groups that hold at least two paths.
*/
module Grouping {

  /** A SHA-1 digest: twenty bytes. */
  type Hash = h: seq<bv8> | |h| == 20 witness seq(20, i => 0 as bv8)

  // ----- appending under a key -----

  /** Go's `m[k]` on a map of slices: the group under `k`, or the nil (empty) slice. */
  function Group<K(==)>(m: map<K, seq<string>>, k: K): seq<string> {
    if k in m then m[k] else []
  }

  /** `m[k] = append(m[k], p)`. */
  function Append<K(==)>(m: map<K, seq<string>>, k: K, p: string): map<K, seq<string>> {
    m[k := Group(m, k) + [p]]
  }

  /**
    Appending under `k` grows the group under `k` by `p` at its end and
    leaves every other group as it was.
  */
  lemma AppendUnderOneKey<K>(m: map<K, seq<string>>, k: K, p: string)
    ensures Append(m, k, p).Keys == m.Keys + {k}
    ensures Group(Append(m, k, p), k) == Group(m, k) + [p]
    ensures forall k' | k' != k :: Group(Append(m, k, p), k') == Group(m, k')
  {
  }

  /** The map after appending every (key, path) pair of `items`, in order, to `m`. */
  function AppendAll<K(==)>(m: map<K, seq<string>>, items: seq<(K, string)>): map<K, seq<string>>
    decreases |items|
  {
    if items == [] then m
    else
      var last := items[|items| - 1];
      Append(AppendAll(m, items[..|items| - 1]), last.0, last.1)
  }

  /** The paths that `items` pairs with `k`, in their order in `items`. */
  function PathsUnder<K(==)>(items: seq<(K, string)>, k: K): (r: seq<string>)
    ensures forall p :: p in r <==> (k, p) in items
    decreases |items|
  {
    if items == [] then []
    else
      var init, last := items[..|items| - 1], items[|items| - 1];
      assert items == init + [last];
      PathsUnder(init, k) + (if last.0 == k then [last.1] else [])
  }

  /**
    Grouping partitions the paths by key: the group under `k` is exactly the
    paths inserted under `k`, in insertion order, and a key has a group only
    if some path was inserted under it.
  */
  lemma {:induction false} GroupsArePartition<K>(items: seq<(K, string)>, k: K)
    ensures Group(AppendAll(map[], items), k) == PathsUnder(items, k)
    ensures k in AppendAll(map[], items) <==> PathsUnder(items, k) != []
    decreases |items|
  {
    if items != [] {
      GroupsArePartition(items[..|items| - 1], k);
    }
  }

  // ----- groups with at least two paths -----

  /** The keys whose group holds at least two paths. */
  ghost function NonSingletonKeys<K>(m: map<K, seq<string>>): set<K> {
    set k | k in m && |m[k]| >= 2
  }

  /** `order` lists every key of `keys` exactly once. */
  ghost predicate Enumerates<K>(order: seq<K>, keys: set<K>) {
    && (forall i, j | 0 <= i < j < |order| :: order[i] != order[j])
    && (forall i | 0 <= i < |order| :: order[i] in keys)
    && (forall k | k in keys :: k in order)
  }

  /** The groups under the keys of `order`, laid end to end. */
  function Concat<K(==)>(m: map<K, seq<string>>, order: seq<K>): seq<string>
    requires forall k | k in order :: k in m
    decreases |order|
  {
    if order == [] then [] else Concat(m, order[..|order| - 1]) + m[order[|order| - 1]]
  }

  /** The total number of paths in the groups under `keys`. */
  ghost function TotalSize<K>(m: map<K, seq<string>>, keys: set<K>): nat
    requires keys <= m.Keys
    decreases keys
  {
    if keys == {} then 0 else var k :| k in keys; |m[k]| + TotalSize(m, keys - {k})
  }

  /** TotalSize may take its keys in any order. */
  lemma {:induction false} TotalSizeRemove<K>(m: map<K, seq<string>>, keys: set<K>, k: K)
    requires keys <= m.Keys && k in keys
    ensures TotalSize(m, keys) == |m[k]| + TotalSize(m, keys - {k})
    decreases keys
  {
    var j :| j in keys && TotalSize(m, keys) == |m[j]| + TotalSize(m, keys - {j});
    if j != k {
      TotalSizeRemove(m, keys - {j}, k);
      TotalSizeRemove(m, keys - {k}, j);
      assert keys - {j} - {k} == keys - {k} - {j};
    }
  }

  /** Dropping the last key of an enumeration enumerates the other keys. */
  lemma EnumerationInit<K>(order: seq<K>, keys: set<K>)
    requires order != [] && Enumerates(order, keys)
    ensures order[|order| - 1] in keys
    ensures Enumerates(order[..|order| - 1], keys - {order[|order| - 1]})
  {
    var init, last := order[..|order| - 1], order[|order| - 1];
    assert forall i, j | 0 <= i < j < |init| :: init[i] != init[j] by {
      forall i, j | 0 <= i < j < |init| ensures init[i] != init[j] {
        assert init[i] == order[i] && init[j] == order[j];
      }
    }
    assert last !in init by {
      forall i | 0 <= i < |init| ensures init[i] != last {
        assert order[i] == init[i];
      }
    }
    forall k | k in keys - {last} ensures k in init {
      var i :| 0 <= i < |order| && order[i] == k;
      assert init[i] == k;
    }
  }

  /**
    Laying out the groups of an enumeration of `keys` gives every path of
    those groups and nothing else, TotalSize(m, keys) paths in all.
  */
  lemma {:induction false} ConcatContents<K>(m: map<K, seq<string>>, order: seq<K>, keys: set<K>)
    requires keys <= m.Keys && Enumerates(order, keys)
    ensures forall p :: p in Concat(m, order) <==> exists k :: k in keys && p in m[k]
    ensures |Concat(m, order)| == TotalSize(m, keys)
    decreases |order|
  {
    if order != [] {
      var init, last := order[..|order| - 1], order[|order| - 1];
      EnumerationInit(order, keys);
      ConcatContents(m, init, keys - {last});
      TotalSizeRemove(m, keys, last);
    } else {
      assert keys == {};
    }
  }

  /** An enumeration of a set is as long as the set is large. */
  lemma {:induction false} EnumerationLength<K>(order: seq<K>, keys: set<K>)
    requires Enumerates(order, keys)
    ensures |order| == |keys|
    decreases |order|
  {
    if order != [] {
      EnumerationInit(order, keys);
      EnumerationLength(order[..|order| - 1], keys - {order[|order| - 1]});
    } else {
      assert keys == {};
    }
  }

  /** A non-empty set has a member (stated for the solver's benefit on `set<int>`). */
  lemma MemberOfNonEmpty<T>(s: set<T>) returns (x: T)
    requires s != {}
    ensures x in s
  {
    x :| x in s;
  }

  /**
    duplicatesInt64: the paths of every size group that holds at least two
    paths, group after group.  Go visits the map in an unspecified order; the
    ghost `order` records the order this run took.
  */
  method DuplicatesInt64(f: map<int, seq<string>>) returns (result: seq<string>, ghost order: seq<int>)
    ensures Enumerates(order, NonSingletonKeys(f))
    ensures forall k | k in order :: k in f
    ensures result == Concat(f, order)
    ensures forall p :: p in result <==> exists k :: k in NonSingletonKeys(f) && p in f[k]
    ensures |result| == TotalSize(f, NonSingletonKeys(f))
  {
    result, order := [], [];
    var remaining := f.Keys;
    while remaining != {}
      invariant remaining <= f.Keys
      invariant forall k | k in order :: k in f && |f[k]| >= 2 && k !in remaining
      invariant forall i, j | 0 <= i < j < |order| :: order[i] != order[j]
      invariant forall k | k in f && |f[k]| >= 2 :: k in order || k in remaining
      invariant result == Concat(f, order)
      decreases remaining
    {
      ghost var someKey := MemberOfNonEmpty(remaining);
      var k :| k in remaining;
      remaining := remaining - {k};
      var paths := f[k];
      if |paths| < 2 {
        continue;
      }
      assert (order + [k])[..|order|] == order;
      result := result + paths;
      order := order + [k];
    }
    assert forall i | 0 <= i < |order| :: order[i] in NonSingletonKeys(f);
    forall k | k in NonSingletonKeys(f) ensures k in order {
      assert k in f && |f[k]| >= 2;
      assert k !in remaining;
    }
    ConcatContents(f, order, NonSingletonKeys(f));
  }

  /**
    duplicatesSHA1: every digest group that holds at least two paths, as one
    duplicate set each, in the (unspecified) order Go visits the map.
  */
  method DuplicatesSHA1(f: map<Hash, seq<string>>) returns (result: seq<seq<string>>, ghost order: seq<Hash>)
    ensures Enumerates(order, NonSingletonKeys(f))
    ensures |result| == |NonSingletonKeys(f)|
    ensures forall s | s in result :: |s| >= 2 && s in f.Values
    ensures |order| == |result|
    ensures forall i | 0 <= i < |result| :: order[i] in f && result[i] == f[order[i]]
  {
    result, order := [], [];
    var remaining := f.Keys;
    while remaining != {}
      invariant remaining <= f.Keys
      invariant forall k | k in order :: k in f && |f[k]| >= 2 && k !in remaining
      invariant forall i, j | 0 <= i < j < |order| :: order[i] != order[j]
      invariant forall k | k in f && |f[k]| >= 2 :: k in order || k in remaining
      invariant |result| == |order|
      invariant forall i | 0 <= i < |result| :: result[i] == f[order[i]]
      decreases remaining
    {
      var k :| k in remaining;
      remaining := remaining - {k};
      var paths := f[k];
      if |paths| < 2 {
        continue;
      }
      result := result + [paths];
      order := order + [k];
    }
    EnumerationLength(order, NonSingletonKeys(f));
  }

  /**
    The three cases of main_test.go: one path gives no duplicate set, two
    paths under one digest give one, two different digests give none.
  */
  lemma AddDuplicatesCases(a: Hash, b: Hash, p: string, q: string)
    requires a != b
    ensures |NonSingletonKeys(Append(map[], a, p))| == 0
    ensures |NonSingletonKeys(Append(map[a := [q]], a, p))| == 1
    ensures |NonSingletonKeys(Append(map[a := [q]], b, p))| == 0
  {
    assert NonSingletonKeys(Append(map[], a, p)) == {};
    assert NonSingletonKeys(Append(map[a := [q]], a, p)) == {a};
    assert NonSingletonKeys(Append(map[a := [q]], b, p)) == {};
  }
}

=== FILE: progress.dfy ===
/**
  The progress printer: one mark per file handled, and a fresh line, headed
  by an indent or by the percentage done, every 77 marks.
*/
module Progress {
  import opened Seqs

  /** The number of marks on one line of progress output. */
  const LINE_WIDTH: nat := 77

  /** What the printer writes: a line header or one mark ('.', 'd' or 'e'). */
  datatype Glyph =
    | Indent                             // "\n   ", when the total is unknown
    | Percent(done: int, total: int)     // "\n<done/total as a percentage>% "
    | Mark(c: char)

  /** The header of a line that starts after `done` marks. */
  function Header(done: int, total: int): (g: Glyph)
    ensures g.Indent? <==> total == 0
    ensures g.Percent? ==> g.done == done && g.total == total
  {
    if total == 0 then Indent else Percent(done, total)
  }

  /**
    What a fresh printer with the given total has written after printing
    `marks`: a header before mark number 0, 77, 154, …, and each mark.
  */
  function Render(total: int, marks: seq<char>): seq<Glyph>
    decreases |marks|
  {
    if marks == [] then
      []
    else
      var n := |marks| - 1;
      var prev := Render(total, marks[..n]);
      (if n % LINE_WIDTH == 0 then prev + [Header(n, total)] else prev) + [Mark(marks[n])]
  }

  /** The marks of `out`, in order. */
  function MarksOf(out: seq<Glyph>): (r: seq<char>)
    ensures |r| <= |out|
    decreases |out|
  {
    if out == [] then []
    else MarksOf(out[..|out| - 1]) + (if out[|out| - 1].Mark? then [out[|out| - 1].c] else [])
  }

  /** The number of headers in `out`. */
  function Headers(out: seq<Glyph>): nat
    decreases |out|
  {
    if out == [] then 0
    else Headers(out[..|out| - 1]) + (if out[|out| - 1].Mark? then 0 else 1)
  }

  /** The marks written since the last header of `out`. */
  function TrailingMarks(out: seq<Glyph>): nat
    decreases |out|
  {
    if out == [] then 0
    else if out[|out| - 1].Mark? then TrailingMarks(out[..|out| - 1]) + 1
    else 0
  }

  /** No line of `out` holds more than LINE_WIDTH marks. */
  predicate LinesBounded(out: seq<Glyph>)
    decreases |out|
  {
    out == [] || (LinesBounded(out[..|out| - 1]) && TrailingMarks(out) <= LINE_WIDTH)
  }

  /** lineCount after `n` increments of a fresh printer. */
  function LineCount(n: nat): (c: nat)
    ensures n == 0 <==> c == 0
    ensures c <= LINE_WIDTH
  {
    if n == 0 then 0 else (n - 1) % LINE_WIDTH + 1
  }

  /** One more increment starts a new line after every 77 marks, and otherwise lengthens the line. */
  lemma LineCountStep(n: nat)
    ensures LineCount(n + 1) == if n % LINE_WIDTH == 0 then 1 else LineCount(n) + 1
  {
    if n % LINE_WIDTH != 0 {
      var q, r := n / LINE_WIDTH, n % LINE_WIDTH;
      assert n - 1 == q * LINE_WIDTH + (r - 1);
    }
  }

  /** How the measures above grow when one glyph is written. */
  lemma WriteGlyph(out: seq<Glyph>, g: Glyph)
    ensures MarksOf(out + [g]) == MarksOf(out) + if g.Mark? then [g.c] else []
    ensures Headers(out + [g]) == Headers(out) + if g.Mark? then 0 else 1
    ensures TrailingMarks(out + [g]) == if g.Mark? then TrailingMarks(out) + 1 else 0
    ensures LinesBounded(out + [g]) <==> LinesBounded(out) && TrailingMarks(out + [g]) <= LINE_WIDTH
  {
    assert (out + [g])[..|out|] == out;
  }

  /** The glyphs Render adds for mark number n. */
  lemma RenderStep(total: int, marks: seq<char>)
    requires marks != []
    ensures var n, prev := |marks| - 1, Render(total, marks[..|marks| - 1]);
      Render(total, marks) == (if n % LINE_WIDTH == 0 then prev + [Header(n, total)] else prev) + [Mark(marks[n])]
  {
  }

  /** The output of a fresh printer holds the printed marks, in order. */
  lemma {:induction false} RenderMarks(total: int, marks: seq<char>)
    ensures MarksOf(Render(total, marks)) == marks
    decreases |marks|
  {
    if marks != [] {
      var n := |marks| - 1;
      var prev := Render(total, marks[..n]);
      RenderMarks(total, marks[..n]);
      RenderStep(total, marks);
      if n % LINE_WIDTH == 0 {
        WriteGlyph(prev, Header(n, total));
        WriteGlyph(prev + [Header(n, total)], Mark(marks[n]));
      } else {
        WriteGlyph(prev, Mark(marks[n]));
      }
      InitSnoc(marks);
    }
  }

  /** The output of a fresh printer that has printed anything starts with a header. */
  lemma {:induction false} RenderStartsWithHeader(total: int, marks: seq<char>)
    requires marks != []
    ensures Render(total, marks)[0] == Header(0, total)
    decreases |marks|
  {
    var n := |marks| - 1;
    if n > 0 {
      RenderStartsWithHeader(total, marks[..n]);
    }
  }

  /** The last line of a fresh printer's output holds LineCount(|marks|) marks. */
  lemma {:induction false} RenderLastLine(total: int, marks: seq<char>)
    ensures TrailingMarks(Render(total, marks)) == LineCount(|marks|)
    decreases |marks|
  {
    if marks != [] {
      var n := |marks| - 1;
      var prev := Render(total, marks[..n]);
      RenderLastLine(total, marks[..n]);
      RenderStep(total, marks);
      if n % LINE_WIDTH == 0 {
        WriteGlyph(prev, Header(n, total));
        WriteGlyph(prev + [Header(n, total)], Mark(marks[n]));
      } else {
        WriteGlyph(prev, Mark(marks[n]));
      }
      LineCountStep(n);
    }
  }

  /** No line of a fresh printer's output holds more than 77 marks. */
  lemma {:induction false} RenderLinesBounded(total: int, marks: seq<char>)
    ensures LinesBounded(Render(total, marks))
    decreases |marks|
  {
    if marks != [] {
      var n := |marks| - 1;
      var prev := Render(total, marks[..n]);
      RenderLinesBounded(total, marks[..n]);
      RenderLastLine(total, marks);
      RenderStep(total, marks);
      if n % LINE_WIDTH == 0 {
        WriteGlyph(prev, Header(n, total));
        WriteGlyph(prev + [Header(n, total)], Mark(marks[n]));
      } else {
        WriteGlyph(prev, Mark(marks[n]));
      }
    }
  }

  /** A fresh printer writes one header per started line of 77 marks. */
  lemma {:induction false} RenderHeaders(total: int, marks: seq<char>)
    ensures Headers(Render(total, marks)) == (|marks| + LINE_WIDTH - 1) / LINE_WIDTH
    decreases |marks|
  {
    if marks != [] {
      var n := |marks| - 1;
      var prev := Render(total, marks[..n]);
      RenderHeaders(total, marks[..n]);
      RenderStep(total, marks);
      if n % LINE_WIDTH == 0 {
        WriteGlyph(prev, Header(n, total));
        WriteGlyph(prev + [Header(n, total)], Mark(marks[n]));
        assert n + LINE_WIDTH - 1 == (n / LINE_WIDTH) * LINE_WIDTH + (LINE_WIDTH - 1);
      } else {
        WriteGlyph(prev, Mark(marks[n]));
        assert n + LINE_WIDTH == (n / LINE_WIDTH + 1) * LINE_WIDTH + n % LINE_WIDTH;
      }
    }
  }

  /** The progress printer of one phase of the run. */
  class ProgressPrinter {
    /** The number of entries the phase will print, or 0 when unknown. */
    const total: int
    /** The number of marks printed so far. */
    var current: int
    /** The number of marks on the current line. */
    var lineCount: int
    /** Everything written so far. */
    var output: seq<Glyph>
    /** The marks printed so far. */
    ghost var marks: seq<char>

    ghost predicate Valid()
      reads this
    {
      && current == |marks|
      && lineCount == LineCount(current)
      && output == Render(total, marks)
    }

    /** A printer that has printed nothing. */
    constructor(total: int)
      ensures Valid() && this.total == total && marks == []
    {
      this.total := total;
      current := 0;
      lineCount := 0;
      output := [];
      marks := [];
    }

    /**
      inc: a full or fresh line (77 or 0 marks) gets a new header first, then
      the counters move on by one, leaving between 1 and 77 marks on the line.
    */
    method Inc()
      requires Valid()
      modifies this
      ensures current == old(current) + 1 && marks == old(marks)
      ensures lineCount == LineCount(current) && 1 <= lineCount <= LINE_WIDTH
      ensures lineCount == if old(lineCount) == LINE_WIDTH || old(lineCount) == 0 then 1 else old(lineCount) + 1
      ensures output == old(output) + if old(current) % LINE_WIDTH == 0 then [Header(old(current), total)] else []
    {
      if lineCount == LINE_WIDTH || lineCount == 0 {
        output := output + [Header(current, total)];
        lineCount := 0;
      }
      current := current + 1;
      lineCount := lineCount + 1;
    }

    /** Print: one mark, 'd' for a file that duplicates an earlier one, '.' otherwise. */
    method Print(dupe: bool)
      requires Valid()
      modifies this
      ensures Valid()
      ensures marks == old(marks) + [if dupe then 'd' else '.']
    {
      Inc();
      var c := if dupe then 'd' else '.';
      output := output + [Mark(c)];
      marks := marks + [c];
      assert marks[..|marks| - 1] == old(marks);
    }

    /** Err: the mark 'e', for an entry the walk could not read. */
    method Err()
      requires Valid()
      modifies this
      ensures Valid()
      ensures marks == old(marks) + ['e']
    {
      Inc();
      output := output + [Mark('e')];
      marks := marks + ['e'];
      assert marks[..|marks| - 1] == old(marks);
    }
  }
}

=== FILE: resolve.dfy ===
/**
  Resolution of one duplicate set: the shortest path is kept as the original,
  the others are the rejects, and each reject is renamed into a `_Rejected`
  folder next to the original under a numbered copy name.
*/
module Resolve {
  import opened Wrappers
  import opened GoPath
  import opened Seqs

  /** The name of the quarantine folder. */
  const REJECT_FOLDER: string := "_Rejected"

  // ----- choosing the original -----

  /** `k` is the first index of a path of minimal length in `a`. */
  predicate IsFirstShortest(a: seq<string>, k: int) {
    && 0 <= k < |a|
    && (forall j | 0 <= j < |a| :: |a[k]| <= |a[j]|)
    && (forall j | 0 <= j < k :: |a[j]| > |a[k]|)
  }

  /** The index shortestIdx computes, defined recursively from the front of `a`. */
  function FirstShortest(a: seq<string>): (k: nat)
    ensures a == [] ==> k == 0
    ensures a != [] ==> IsFirstShortest(a, k)
    decreases |a|
  {
    if |a| <= 1 then
      0
    else
      var j := 1 + FirstShortest(a[1..]);
      if |a[j]| < |a[0]| then j else 0
  }

  /** At most one index is the first shortest. */
  lemma FirstShortestUnique(a: seq<string>, k: int, l: int)
    requires IsFirstShortest(a, k) && IsFirstShortest(a, l)
    ensures k == l
  {
    assert |a[k]| <= |a[l]| && |a[l]| <= |a[k]|;
  }

  /**
    shortestIdx: the index of the first path of minimal length; 0 for an
    empty slice (the loop does not run).
  */
  method ShortestIdx(a: seq<string>) returns (idx: nat)
    ensures a == [] ==> idx == 0
    ensures a != [] ==> IsFirstShortest(a, idx)
    ensures idx == FirstShortest(a)
  {
    idx := 0;
    for i := 0 to |a|
      invariant idx == 0 || idx < i
      invariant a != [] ==> idx < |a|
      invariant a != [] ==> forall j | 0 <= j < i :: |a[idx]| <= |a[j]|
      invariant a != [] ==> forall j | 0 <= j < idx :: |a[j]| > |a[idx]|
    {
      if |a[i]| < |a[idx]| {
        idx := i;
      }
    }
    if a != [] {
      FirstShortestUnique(a, idx, FirstShortest(a));
    }
  }

  /**
    `append(paths[:i], paths[i+1:]...)`: the paths without the one at index
    `i`, the others keeping their relative order.
  */
  function Rejects(paths: seq<string>, i: nat): (r: seq<string>)
    requires i < |paths|
    ensures |r| == |paths| - 1
    ensures forall j | 0 <= j < i :: r[j] == paths[j]
    ensures forall j | i <= j < |r| :: r[j] == paths[j + 1]
    ensures multiset(r) + multiset{paths[i]} == multiset(paths)
  {
    assert paths == paths[..i] + [paths[i]] + paths[i + 1..];
    paths[..i] + paths[i + 1..]
  }

  // ----- ordering the duplicate sets -----

  /** Go's `<` on strings: lexicographic order, characters standing in for bytes. */
  predicate LexLess(a: string, b: string)
    decreases |a|
  {
    if a == [] then b != []
    else if b == [] then false
    else if a[0] != b[0] then a[0] < b[0]
    else LexLess(a[1..], b[1..])
  }

  lemma {:induction false} LexLessIrreflexive(a: string)
    ensures !LexLess(a, a)
    decreases |a|
  {
    if a != [] {
      LexLessIrreflexive(a[1..]);
    }
  }

  lemma {:induction false} LexLessTransitive(a: string, b: string, c: string)
    requires LexLess(a, b) && LexLess(b, c)
    ensures LexLess(a, c)
    decreases |a|
  {
    if a != [] && a[0] == b[0] && b[0] == c[0] {
      LexLessTransitive(a[1..], b[1..], c[1..]);
    }
  }

  /** Two different strings are ordered one way or the other. */
  lemma {:induction false} LexLessTotal(a: string, b: string)
    requires a != b
    ensures LexLess(a, b) || LexLess(b, a)
    decreases |a|
  {
    if a != [] && b != [] && a[0] == b[0] {
      assert a == [a[0]] + a[1..] && b == [b[0]] + b[1..];
      LexLessTotal(a[1..], b[1..]);
    }
  }

  /** The sort key of a duplicate set: its first shortest path, lower-cased. */
  function SortKey(paths: seq<string>): string
    requires paths != []
  {
    ToLower(paths[FirstShortest(paths)])
  }

  /** ByShortest.Less: set `i` sorts before set `j` by their sort keys. */
  function ByShortestLess(s: seq<seq<string>>, i: nat, j: nat): bool
    requires i < |s| && j < |s| && s[i] != [] && s[j] != []
  {
    LexLess(SortKey(s[i]), SortKey(s[j]))
  }

  lemma ByShortestIrreflexive(s: seq<seq<string>>, i: nat)
    requires i < |s| && s[i] != []
    ensures !ByShortestLess(s, i, i)
  {
    LexLessIrreflexive(SortKey(s[i]));
  }

  lemma ByShortestTransitive(s: seq<seq<string>>, i: nat, j: nat, k: nat)
    requires i < |s| && j < |s| && k < |s| && s[i] != [] && s[j] != [] && s[k] != []
    requires ByShortestLess(s, i, j) && ByShortestLess(s, j, k)
    ensures ByShortestLess(s, i, k)
  {
    LexLessTransitive(SortKey(s[i]), SortKey(s[j]), SortKey(s[k]));
  }

  /**
    Two sets are unordered by Less exactly when their sort keys are equal, so
    incomparability is an equivalence and Less is a strict weak order, which
    is what sort.Sort needs.
  */
  lemma ByShortestTies(s: seq<seq<string>>, i: nat, j: nat)
    requires i < |s| && j < |s| && s[i] != [] && s[j] != []
    ensures !ByShortestLess(s, i, j) && !ByShortestLess(s, j, i) <==> SortKey(s[i]) == SortKey(s[j])
  {
    if SortKey(s[i]) == SortKey(s[j]) {
      LexLessIrreflexive(SortKey(s[i]));
    } else {
      LexLessTotal(SortKey(s[i]), SortKey(s[j]));
    }
  }

  // ----- naming the quarantined copies -----

  /**
    The copy name `<stem>_<number><ext>`, where stem and ext are the last
    element of `filePath` without and with its extension.
  */
  function CopyName(filePath: string, number: int): string {
    Base(Stem(filePath)) + "_" + Decimal(number) + Ext(filePath)
  }

  /** copyPath: the copy name inside `dest`. */
  function CopyPath(filePath: string, dest: string, number: int): string {
    Join(dest, CopyName(filePath, number))
  }

  /** Copies of one file into one directory under different numbers never collide. */
  lemma CopyPathNumbersDistinct(filePath: string, dest: string, m: int, n: int)
    requires m != n
    ensures CopyPath(filePath, dest, m) != CopyPath(filePath, dest, n)
  {
    var x, y := CopyName(filePath, m), CopyName(filePath, n);
    if CopyPath(filePath, dest, m) == CopyPath(filePath, dest, n) {
      JoinInjective(dest, x, y);
      var front, ext := Base(Stem(filePath)) + "_", Ext(filePath);
      assert x == front + Decimal(m) + ext && y == front + Decimal(n) + ext;
      assert Decimal(m) == x[|front|..|x| - |ext|];
      assert Decimal(n) == y[|front|..|y| - |ext|];
      DecimalInjective(m, n);
    }
  }

  /** A copy keeps the extension of the file it is named after. */
  lemma CopyPathKeepsExt(filePath: string, dest: string, number: int)
    requires Ext(filePath) != ""
    ensures Ext(CopyPath(filePath, dest, number)) == Ext(filePath)
  {
    var ext := Ext(filePath);
    var name := CopyName(filePath, number);
    ExtShape(filePath);
    JoinEndsWithName(dest, name);
    var front :| Join(dest, name) == front + name;
    var head := Base(Stem(filePath)) + "_" + Decimal(number);
    assert front + name == (front + head) + ext;
    ExtOfSuffix(front + head, ext);
  }

  /**
    Placed in a directory `dest`, a copy lies directly inside `dest` and is
    called `<stem>_<number><ext>` (for a file whose stem is not made of
    separators only, as for "/.jpg").
  */
  lemma CopyPathPlacement(filePath: string, dest: string, number: int)
    requires DirForm(dest)
    requires SEPARATOR !in Base(Stem(filePath))
    ensures Dir(CopyPath(filePath, dest, number)) == dest
    ensures Base(CopyPath(filePath, dest, number)) == CopyName(filePath, number)
  {
    CopyNameIsElement(filePath, number);
    DirOfJoin(dest, CopyName(filePath, number));
  }

  /** The copy name is a single path element when the stem's base is one. */
  lemma CopyNameIsElement(filePath: string, number: int)
    requires SEPARATOR !in Base(Stem(filePath))
    ensures SEPARATOR !in CopyName(filePath, number)
  {
    var base, digits, ext := Base(Stem(filePath)), Decimal(number), Ext(filePath);
    assert SEPARATOR !in ext by {
      ExtShape(filePath);
      if ext != "" {
        assert ext[0] == '.';
      }
    }
    assert SEPARATOR !in digits by {
      DecimalChars(number);
    }
    assert CopyName(filePath, number) == base + "_" + digits + ext;
  }

  // ----- the quarantine folder -----

  /** `filepath.Join(filepath.Dir(original), rejectFolder)`. */
  function QuarantineDir(original: string): string {
    Join(Dir(original), REJECT_FOLDER)
  }

  /** The quarantine folder is the original's directory followed by `_Rejected`. */
  lemma QuarantineDirShape(original: string) returns (front: string)
    ensures QuarantineDir(original) == front + REJECT_FOLDER
    ensures |QuarantineDir(original)| > 1 && QuarantineDir(original)[|QuarantineDir(original)| - 1] == 'd'
  {
    var d := Dir(original);
    front := if d == "." then "" else if d[|d| - 1] == SEPARATOR then d else d + [SEPARATOR];
  }

  /** The quarantine folder is the entry `_Rejected` of the original's directory. */
  lemma QuarantineDirIsSibling(original: string)
    ensures DirForm(QuarantineDir(original))
    ensures Dir(QuarantineDir(original)) == Dir(original)
    ensures Base(QuarantineDir(original)) == REJECT_FOLDER
    ensures Contains(QuarantineDir(original), REJECT_FOLDER)
  {
    var front := QuarantineDirShape(original);
    DirOfJoin(Dir(original), REJECT_FOLDER);
    assert OccursAt(QuarantineDir(original), REJECT_FOLDER, |front|);
  }

  /** A name joined below a folder whose path ends in `_Rejected` has `_Rejected` in its path. */
  lemma JoinedBelowIsMarked(q: string, front: string, name: string)
    requires q == front + REJECT_FOLDER && name != ""
    ensures Contains(Join(q, name), REJECT_FOLDER)
  {
    JoinBelow(q, name);
    ContainsInfix(front, REJECT_FOLDER, [SEPARATOR] + name);
    assert front + REJECT_FOLDER + ([SEPARATOR] + name) == q + [SEPARATOR] + name;
  }

  /** Every copy placed in a quarantine folder has `_Rejected` in its path. */
  lemma QuarantinedCopyIsMarked(original: string, number: int)
    ensures Contains(CopyPath(original, QuarantineDir(original), number), REJECT_FOLDER)
  {
    var front := QuarantineDirShape(original);
    JoinedBelowIsMarked(QuarantineDir(original), front, CopyName(original, number));
  }

  /** A copy path assembled from the original's folder, stem and extension. */
  lemma CopyPathParts(original: string, dir: string, stem: string, ext: string, number: int)
    requires Dir(original) == dir && Stem(original) == stem && Ext(original) == ext
    ensures CopyPath(original, QuarantineDir(original), number) == Join(Join(dir, REJECT_FOLDER), Base(stem) + "_" + Decimal(number) + ext)
  {
  }

  /** The folder, stem and extension of `d/<name>.jpg`, for a name without separators. */
  lemma JpgInFolderD(name: string, stem: string, p: string)
    requires SEPARATOR !in name && stem == "d/" + name && p == stem + ".jpg"
    ensures Dir(p) == "d" && Stem(p) == stem && Ext(p) == ".jpg"
  {
    ExtOfSuffix(stem, ".jpg");
    assert p == "d/" + (name + ".jpg");
    ElementStartAfter("d/", name + ".jpg");
    assert p[..2] == "d/";
    assert TrimTrailingSeparators("d/") == "d";
    assert p[..|p| - |Ext(p)|] == stem;
  }

  /** The stem `d/` has base `d`: Base drops the trailing separator. */
  lemma DirStemBase()
    ensures Base("d/") == "d"
  {
    assert TrimTrailingSeparators("d/") == "d";
    assert ElementStart("d") == 0;
  }

  /** The stem `d/d` has base `d`. */
  lemma FileStemBase()
    ensures Base("d/d") == "d"
  {
    assert TrimTrailingSeparators("d/d") == "d/d";
    assert ElementStart("d/d") == 2;
  }

  /**
    Copies are named after the original, so two duplicate sets can send a
    copy to the same place: `d/.jpg` and `d/d.jpg` share a folder, a stem base
    and an extension, and the first reject of either goes to `d/_Rejected/d_1.jpg`.
  */
  lemma CrossSetCopyCollision()
    ensures CopyPath("d/.jpg", QuarantineDir("d/.jpg"), 1) == "d/_Rejected/d_1.jpg"
    ensures CopyPath("d/d.jpg", QuarantineDir("d/d.jpg"), 1) == "d/_Rejected/d_1.jpg"
  {
    CollisionOriginals();
    JpgInFolderD("", "d/", "d/.jpg");
    JpgInFolderD("d", "d/d", "d/d.jpg");
    DirStemBase();
    FileStemBase();
    assert Decimal(1) == "1";
    CopyPathParts("d/.jpg", "d", "d/", ".jpg", 1);
    CopyPathParts("d/d.jpg", "d", "d/d", ".jpg", 1);
    CollisionPath();
  }

  /** The two originals and their stems, spelled as `d/<name>` and `d/<name>.jpg`. */
  lemma CollisionOriginals()
    ensures "d/" == "d/" + "" && "d/.jpg" == "d/" + ".jpg"
    ensures "d/d" == "d/" + "d" && "d/d.jpg" == "d/d" + ".jpg"
  {
  }

  /** The folder and name that both copies are given. */
  lemma CollisionPath()
    ensures Join(Join("d", REJECT_FOLDER), "d" + "_" + "1" + ".jpg") == "d/_Rejected/d_1.jpg"
  {
    assert Join("d", REJECT_FOLDER) == "d/_Rejected";
    assert "d" + "_" + "1" + ".jpg" == "d_1.jpg";
  }

  // ----- the moves of one duplicate set -----

  /** Renaming `from` to `to`. */
  datatype Move = Move(from: string, to: string)

  /**
    The moves that send `rejects`, in order, to the numbered copies of
    `original` (counting from 1) inside the original's quarantine folder.
  */
  function Plan(original: string, rejects: seq<string>): (r: seq<Move>)
    ensures |r| == |rejects|
    ensures forall j | 0 <= j < |r| :: r[j].from == rejects[j]
  {
    seq(|rejects|, j requires 0 <= j < |rejects| => Move(rejects[j], CopyPath(original, QuarantineDir(original), j + 1)))
  }

  /** Two different moves of a plan have different destinations. */
  lemma PlanDestinationsDiffer(original: string, rejects: seq<string>, j: nat, k: nat)
    requires j < k < |rejects|
    ensures Plan(original, rejects)[j].to != Plan(original, rejects)[k].to
  {
    PlanAt(original, rejects, j);
    PlanAt(original, rejects, k);
    CopyPathNumbersDistinct(original, QuarantineDir(original), j + 1, k + 1);
  }

  /** Move `j` of a plan goes to copy number `j + 1`. */
  lemma PlanAt(original: string, rejects: seq<string>, j: nat)
    requires j < |rejects|
    ensures Plan(original, rejects)[j].to == CopyPath(original, QuarantineDir(original), j + 1)
  {
  }

  /** No two moves of a plan share a destination. */
  lemma PlanDestinationsDistinct(original: string, rejects: seq<string>)
    ensures forall j, k | 0 <= j < k < |rejects| :: Plan(original, rejects)[j].to != Plan(original, rejects)[k].to
  {
    forall j, k | 0 <= j < k < |rejects| ensures Plan(original, rejects)[j].to != Plan(original, rejects)[k].to {
      PlanDestinationsDiffer(original, rejects, j, k);
    }
  }

  /** Every destination of a plan has `_Rejected` in its path. */
  lemma PlanDestinationsMarked(original: string, rejects: seq<string>)
    ensures forall j | 0 <= j < |rejects| :: Contains(Plan(original, rejects)[j].to, REJECT_FOLDER)
  {
    forall j | 0 <= j < |rejects| ensures Contains(Plan(original, rejects)[j].to, REJECT_FOLDER) {
      QuarantinedCopyIsMarked(original, j + 1);
    }
  }

  /** The moves for a duplicate set: its rejects go to numbered copies of its original. */
  function PlannedMoves(paths: seq<string>): seq<Move>
    requires paths != []
  {
    Plan(paths[FirstShortest(paths)], Rejects(paths, FirstShortest(paths)))
  }

  /**
    A set's plan moves its rejects, each once and in order, to pairwise
    different destinations, all of them inside a quarantine folder; the j-th
    reject becomes copy number j + 1 of the original.
  */
  lemma PlannedMovesProperties(paths: seq<string>)
    requires paths != []
    ensures |PlannedMoves(paths)| == |paths| - 1
    ensures forall j | 0 <= j < |paths| - 1 :: PlannedMoves(paths)[j].from == Rejects(paths, FirstShortest(paths))[j]
    ensures forall j, k | 0 <= j < k < |paths| - 1 :: PlannedMoves(paths)[j].to != PlannedMoves(paths)[k].to
    ensures forall j | 0 <= j < |paths| - 1 :: Contains(PlannedMoves(paths)[j].to, REJECT_FOLDER)
  {
    var original, rejects := paths[FirstShortest(paths)], Rejects(paths, FirstShortest(paths));
    PlanDestinationsDistinct(original, rejects);
    PlanDestinationsMarked(original, rejects);
  }

  /**
    The per-set step of main: pick the original, cut it out of the set, and
    number the rejects' destinations from 1.
  */
  method ResolveSet(paths: seq<string>) returns (original: string, rejectedDir: string, moves: seq<Move>)
    requires paths != []
    ensures IsFirstShortest(paths, FirstShortest(paths)) && original == paths[FirstShortest(paths)]
    ensures rejectedDir == QuarantineDir(original)
    ensures Dir(rejectedDir) == Dir(original) && Base(rejectedDir) == REJECT_FOLDER
    ensures moves == PlannedMoves(paths)
    ensures |moves| == |paths| - 1
    ensures forall j, k | 0 <= j < k < |moves| :: moves[j].to != moves[k].to
    ensures forall j | 0 <= j < |moves| :: Contains(moves[j].to, REJECT_FOLDER)
  {
    var i := ShortestIdx(paths);
    original := paths[i];
    var rest := paths[..i] + paths[i + 1..];
    assert rest == Rejects(paths, i);
    rejectedDir := Join(Dir(original), REJECT_FOLDER);
    assert rejectedDir == QuarantineDir(original);
    moves := [];
    for n := 0 to |rest|
      invariant moves == Plan(original, rest)[..n]
    {
      var m := Move(rest[n], CopyPath(original, rejectedDir, n + 1));
      PrefixSnoc(Plan(original, rest), n, m);
      moves := moves + [m];
    }
    assert moves == Plan(original, rest);
    QuarantineDirIsSibling(original);
    PlannedMovesProperties(paths);
  }

  // ----- carrying out the moves -----

  /** The regular files of the file system, by path, with their contents. */
  type FileSystem = map<string, seq<bv8>>

  /**
    os.Rename of a regular file: fails when `from` is missing, replaces `to`.
    Renames the system refuses (permissions, read-only or cross-device) are
    not modelled.
  */
  function Rename(fs: FileSystem, from: string, to: string): Result<FileSystem, string> {
    if from !in fs then Failure(from) else Success((fs - {from})[to := fs[from]])
  }

  /** The renames of `moves` in order; the first that fails ends the run. */
  function ApplyMoves(fs: FileSystem, moves: seq<Move>): Result<FileSystem, string>
    decreases |moves|
  {
    if moves == [] then
      Success(fs)
    else
      match Rename(fs, moves[0].from, moves[0].to)
      case Failure(e) => Failure(e)
      case Success(next) => ApplyMoves(next, moves[1..])
  }

  /** Every source exists, no path is moved twice or targeted twice, and no destination is a source. */
  ghost predicate SafeMoves(fs: FileSystem, moves: seq<Move>) {
    && (forall j | 0 <= j < |moves| :: moves[j].from in fs)
    && (forall j, k | 0 <= j < k < |moves| :: moves[j].from != moves[k].from && moves[j].to != moves[k].to)
    && (forall j, k | 0 <= j < |moves| && 0 <= k < |moves| :: moves[j].to != moves[k].from)
  }

  ghost predicate Mentioned(moves: seq<Move>, p: string) {
    exists j | 0 <= j < |moves| :: p == moves[j].from || p == moves[j].to
  }

  /**
    Safe moves all succeed: afterwards no source exists, each destination
    holds its source's former contents, and every other path is untouched.
  */
  lemma {:induction false} SafeMovesRelocate(fs: FileSystem, moves: seq<Move>)
    requires SafeMoves(fs, moves)
    ensures ApplyMoves(fs, moves).Success?
    ensures forall j | 0 <= j < |moves| ::
      moves[j].from !in ApplyMoves(fs, moves).value
      && moves[j].to in ApplyMoves(fs, moves).value
      && ApplyMoves(fs, moves).value[moves[j].to] == fs[moves[j].from]
    ensures forall p | !Mentioned(moves, p) ::
      (p in ApplyMoves(fs, moves).value <==> p in fs)
      && (p in fs ==> ApplyMoves(fs, moves).value[p] == fs[p])
    decreases |moves|
  {
    if moves != [] {
      var m, rest := moves[0], moves[1..];
      var next := (fs - {m.from})[m.to := fs[m.from]];
      assert Rename(fs, m.from, m.to) == Success(next);
      assert SafeMoves(next, rest) by {
        forall j | 0 <= j < |rest| ensures rest[j].from in next {
          assert rest[j] == moves[j + 1];
        }
        forall j, k | 0 <= j < k < |rest| ensures rest[j].from != rest[k].from && rest[j].to != rest[k].to {
          assert rest[j] == moves[j + 1] && rest[k] == moves[k + 1];
        }
        forall j, k | 0 <= j < |rest| && 0 <= k < |rest| ensures rest[j].to != rest[k].from {
          assert rest[j] == moves[j + 1] && rest[k] == moves[k + 1];
        }
      }
      SafeMovesRelocate(next, rest);
      var out := ApplyMoves(next, rest).value;
      assert ApplyMoves(fs, moves) == ApplyMoves(next, rest);
      assert !Mentioned(rest, m.from) && !Mentioned(rest, m.to) by {
        forall j | 0 <= j < |rest| ensures m.from != rest[j].from && m.from != rest[j].to
          && m.to != rest[j].from && m.to != rest[j].to
        {
          assert rest[j] == moves[j + 1];
        }
      }
      forall j | 0 <= j < |moves|
        ensures moves[j].from !in out && moves[j].to in out && out[moves[j].to] == fs[moves[j].from]
      {
        if j > 0 {
          assert moves[j] == rest[j - 1];
          assert moves[j].from != m.from && moves[j].from != m.to;
        }
      }
      forall p | !Mentioned(moves, p)
        ensures (p in out <==> p in fs) && (p in fs ==> out[p] == fs[p])
      {
        assert p != m.from && p != m.to;
        assert !Mentioned(rest, p) by {
          forall j | 0 <= j < |rest| ensures p != rest[j].from && p != rest[j].to {
            assert rest[j] == moves[j + 1];
          }
        }
      }
    }
  }

  /**
    Moves that take the rejects of a set of distinct, unquarantined files to
    pairwise different destinations inside quarantine folders are safe, and
    they leave the kept path alone.
  */
  lemma RejectMovesSafe(fs: FileSystem, paths: seq<string>, i: nat, moves: seq<Move>)
    requires i < |paths|
    requires forall j, k | 0 <= j < k < |paths| :: paths[j] != paths[k]
    requires forall p | p in paths :: p in fs && !Contains(p, REJECT_FOLDER)
    requires |moves| == |paths| - 1
    requires forall j | 0 <= j < |moves| :: moves[j].from == Rejects(paths, i)[j]
    requires forall j, k | 0 <= j < k < |moves| :: moves[j].to != moves[k].to
    requires forall j | 0 <= j < |moves| :: Contains(moves[j].to, REJECT_FOLDER)
    ensures SafeMoves(fs, moves)
    ensures !Mentioned(moves, paths[i])
  {
    forall j | 0 <= j < |moves| ensures moves[j].from == paths[if j < i then j else j + 1] && moves[j].from in fs {
    }
    forall j, k | 0 <= j < k < |moves| ensures moves[j].from != moves[k].from {
      assert moves[j].from == paths[if j < i then j else j + 1];
      assert moves[k].from == paths[if k < i then k else k + 1];
    }
    forall j, k | 0 <= j < |moves| && 0 <= k < |moves| ensures moves[j].to != moves[k].from {
      assert moves[k].from in paths;
    }
    forall j | 0 <= j < |moves| ensures paths[i] != moves[j].from && paths[i] != moves[j].to {
      assert moves[j].from == paths[if j < i then j else j + 1];
      assert paths[i] in paths;
    }
  }

  /**
    The plan of a duplicate set whose paths are distinct existing files
    none of whose paths contains `_Rejected` is safe, and it leaves the
    original alone.
  */
  lemma PlannedMovesSafe(fs: FileSystem, paths: seq<string>)
    requires paths != []
    requires forall j, k | 0 <= j < k < |paths| :: paths[j] != paths[k]
    requires forall p | p in paths :: p in fs && !Contains(p, REJECT_FOLDER)
    ensures SafeMoves(fs, PlannedMoves(paths))
    ensures !Mentioned(PlannedMoves(paths), paths[FirstShortest(paths)])
  {
    PlannedMovesProperties(paths);
    RejectMovesSafe(fs, paths, FirstShortest(paths), PlannedMoves(paths));
  }

  /**
    Carrying out the plan of such a set keeps the original where it is, and
    moves every reject, contents unchanged, to its numbered copy.
  */
  lemma PlannedMovesRelocate(fs: FileSystem, paths: seq<string>)
    requires paths != []
    requires forall j, k | 0 <= j < k < |paths| :: paths[j] != paths[k]
    requires forall p | p in paths :: p in fs && !Contains(p, REJECT_FOLDER)
    ensures ApplyMoves(fs, PlannedMoves(paths)).Success?
    ensures var out, original := ApplyMoves(fs, PlannedMoves(paths)).value, paths[FirstShortest(paths)];
      && original in out && out[original] == fs[original]
      && forall j | 0 <= j < |paths| - 1 ::
        var reject, dest := Rejects(paths, FirstShortest(paths))[j], PlannedMoves(paths)[j].to;
        reject !in out && dest in out && out[dest] == fs[reject]
  {
    PlannedMovesSafe(fs, paths);
    SafeMovesRelocate(fs, PlannedMoves(paths));
  }
}

=== FILE: seqs.dfy ===
/** Small facts about sequences that keep the larger proofs cheap. */
module Seqs {

  /** A prefix one longer is the prefix with the next element appended. */
  lemma PrefixSnoc<T>(s: seq<T>, i: nat, x: T)
    requires i < |s| && s[i] == x
    ensures s[..i + 1] == s[..i] + [x]
  {
  }

  /** A non-empty sequence is its front followed by its last element. */
  lemma InitSnoc<T>(s: seq<T>)
    requires s != []
    ensures s[..|s| - 1] + [s[|s| - 1]] == s
  {
  }
}

=== FILE: wrappers.dfy ===
/** Failure-carrying results, used where the program would print an error and exit. */
module Wrappers {

  datatype Option<+T> = None | Some(value: T)

  datatype Result<+R, +E> = Success(value: R) | Failure(error: E)
}
